=== FILE: README.md ===
# eja/maps request pipeline, modelled in Dafny

`eja/maps` is a small Go HTTP handler that serves map tiles. It reads them
from MBTiles (SQLite) archives, and can also hand whole `.mbtiles` /
`.pmtiles` files to a browser viewer or to a range-capable client. Each
request goes through a fixed pipeline:

1. an optional HTTP Basic gate;
2. a check for the mount prefix;
3. a landing response;
4. embedded static assets under `web/`;
5. the map namespace under `map/`. Its remainder is read as a metadata
   request, a tile address `<archive>/<z>/<x>/<y>`, or a whole archive, in
   that order. Archive names are resolved against a root directory, or
   against a single configured file.

The model turns every stage into a pure function over immutable values:

- The request is a `Server.Request`, holding the URL path and the
  `Authorization`, `Accept` and `Range` headers.
- The configuration is a `Settings.Config`.
- The outside world is a `Server.Env`: existing paths, embedded asset names,
  archive contents, and a JSON parse oracle.
- The result is one `Outcomes.Outcome` for each way the handler answers.

Modules, leaf first:

- `GoStrings`, `GoStrconv`, `GoFilepath` model the Go library functions
  that the pipeline's behaviour depends on:
  - `strings.Split` / `Join` / `Contains`;
  - `strconv.Atoi`, with Go's fast path and its 64-bit range check;
  - `filepath.Clean` / `Join` / `Ext`, lexical and for Unix paths.
- `Auth` is `checkAuth`. `Sandbox` is `resolveFilePath`. `Address` is the
  parser in `serveMap`. `Tiles` and `Metadata` are the data logic of the two
  MBTiles handlers. `Store` is those handlers once the path is resolved.
  `Static` is `serveStatic`'s MIME switch. `Server` is `ServeHTTP`.
- Go's 64-bit `int` is modelled explicitly where it matters:
  - `tmsY := (1 << z) - 1 - y` wraps modulo 2^64;
  - `1 << z` is 0 from z = 64 on;
  - a negative `z` panics (the `Panic` outcome).

Archive names are resolved with a corrected sandbox check (see
"## Findings"). For a configuration satisfying `Settings.Valid`, it agrees
with the check as written on every name without `..` segments.

A failed tile query other than `sql.ErrNoRows` is not reported: the
handler still sets the tile headers and writes a 200 with an empty body
(`Store.ServeTile`).

## Model

| member | source | states |
|---|---|---|
| Auth.CheckAuth | main.go:286-298 | the gate accepts exactly one header value: `Basic ` followed by the configured secret, byte for byte |
| Server.Handle | main.go:68-73 | with a secret set, a request is refused with 401, the `Basic realm="Maps"` challenge and the body `Unauthorized` iff its header is not `Basic <secret>`; otherwise the answer is the routing result, so the gate runs before any route logic |
| Server.OpenGateIgnoresHeader | main.go:69-73 | with an empty secret the `Authorization` header never changes the answer |
| Server.AuthExamples | test/integration_test.go:140-165 | with a secret set, a request without the header gets 401 and one carrying `Basic <secret>` passes the gate |
| Server.Route | main.go:75-101 | a path outside the mount prefix is a plain 404; the routing never produces a 401; a redirect happens only in single-file mode and targets `<webPath>map/<fileName>`; the landing text appears only in directory mode; assets come only from `web/` and map answers only from `map/` |
| Server.RootLanding | main.go:80-89 | the mount point, with or without a trailing `/`, redirects to the file in single-file mode and returns the landing text otherwise |
| Server.WebPrefixDispatch | main.go:91-94 | a path under `<webPath>web/` is answered by the asset lookup on the rest of the path |
| Server.MapPrefixDispatch | main.go:96-99 | a path under `<webPath>map/` is answered by the map handler on the rest of the path |
| Server.OtherRemainderNotFound | main.go:101 | any other remainder under the mount point is a plain 404 |
| Server.ServeMap | main.go:132-176 | no route is a plain 404; the viewer page is produced without resolving the archive; when resolution fails, the metadata, tile and raw routes each answer `File not found` (main.go:180-183, 225-228, 256-259); a raw file is only ever served at the path the resolver returned; when resolution succeeds, the metadata route is answered by the metadata handler, the tile route by the tile handler with the URL's coordinates, and the raw route by handing over the file, each on the resolved path (main.go:158, 172, 186, 231, 261) |
| Server.PlainNameResolves | main.go:272-283 | in directory mode, a plain file name resolves exactly when root/name exists, and then to root/name |
| Server.TileRequest | main.go:139-153 | end to end: an authorised `map/<name>.mbtiles/<z>/<x>/<y>` request for an existing archive under the root is answered by the tile handler on that archive, with the coordinates written in the URL |
| Server.MetadataRequest | main.go:133-137 | end to end: an authorised `map/<name>/metadata.json` request for an existing archive is answered by the metadata handler on that archive |
| Server.ViewerWithoutResolution | main.go:162-170 | an HTML-accepting request for a whole archive gets the viewer with `RootPath = <webPath>web` and `File = <webPath>map/<rel>`, whatever is on disk |
| Server.SingleFileRefusesOthers | main.go:265-268 | in single-file mode, a metadata, tile or raw request for any other name is `File not found` |
| Server.SingleFileServesArchive | main.go:265-269 | in single-file mode, a metadata, tile or raw request for the configured name is served from `root/<fileName>` by the matching handler, without consulting the disk |
| Server.NonArchiveNotFound | main.go:155-176 | a remainder that names no archive and does not end in a digit is a plain 404, before anything is resolved |
| Server.TraversalProbeRefused | test/integration_test.go:112-123 | the probe `map/../../etc/passwd` is a 404 |
| Server.SiblingArchiveRefused | main.go:179-183 | with root `/d/n`, the request `map/../n<suffix>/<f>/metadata.json` is the metadata route for `../n<suffix>/<f>`, which the check as written (main.go:275) resolves to the sibling archive `/d/n<suffix>/<f>`; with the corrected check the handler answers `File not found`, even when that archive exists |
| Address.ParseMap | main.go:132-176 | the metadata route is chosen iff the remainder ends in `/metadata.json`, and names the part before it; a tile route names an `.mbtiles` archive and 64-bit coordinates; viewer and raw routes occur only for `.mbtiles` / `.pmtiles` remainders; the viewer requires `text/html` in `Accept`; a raw route names the remainder unchanged |
| Address.TileAt | main.go:139-153 | the coordinate test only ever answers with a tile route for an `.mbtiles` archive and 64-bit coordinates |
| Address.NonArchiveNoRoute | main.go:155-176 | a remainder that is not a metadata request and ends in neither a digit nor an archive suffix is no route at all |
| Address.MetadataRoundTrip | main.go:133-137 | `<file>/metadata.json` is always the metadata route for `<file>`, whatever the file is called and whatever the headers say |
| Address.TileAddress | main.go:139-151 | an `.mbtiles` archive followed by three separator-free pieces that Atoi accepts is the tile route for that archive and those values |
| Address.TileUrlRoundTrip | main.go:139-151 | formatting an archive and 64-bit coordinates as a URL tail and parsing it back gives the same archive and coordinates |
| Address.TileShape | main.go:139-151 | conversely, every tile route comes from a remainder of the form archive, `/`, and three pieces that Atoi maps to the coordinates |
| Address.CoordinatesNeedMBTiles | main.go:147-153 | coordinates after an archive that is not `.mbtiles` (for example `.pmtiles`) never make a tile route, and such a path is a 404 |
| Address.PmtilesIsNotMBTiles | main.go:148 | a `.pmtiles` name never passes the `.mbtiles` suffix test |
| Address.WholeArchive | main.go:155-174 | a remainder ending in `.mbtiles` / `.pmtiles` is never metadata or a tile; it is raw for a `.pmtiles` range request whatever `Accept` says, else the viewer when `Accept` contains `text/html`, else raw |
| Static.Mime | main.go:115-127 | a known extension gets its table type; every other extension gets `application/octet-stream` |
| Static.ContentType | main.go:114-127 | the type is `application/octet-stream` or one of the table's types, and a table type is sent only as the type of the path's extension |
| Static.ContentTypeBySuffix | main.go:114-127 | a name ending in a known extension gets that extension's type, whatever precedes it |
| Static.ContentTypeKnownOnlyBySuffix | main.go:114-127 | a specific type is sent only when the final path element ends in the matching extension |
| Static.ContentTypeExamples | main.go:114-127 | the match is case-sensitive (`logo.PNG` is octet-stream), and only the last extension counts (`app.min.js` is JavaScript) |
| Static.ServeStatic | main.go:104-130 | an asset is served iff `assets/<path>` opens, with its extension's type; anything else is a plain 404 |
| Store.ServeTile | main.go:231-252 | a failed open is a 500 `Database error`; a negative zoom panics; a failed table query is a 200 with the tile headers and an empty body; a 404 `Tile not found` means the table has no row at the converted address; a served tile carries the headers of its own body, and when the table is readable that body is stored at the converted address |
| Store.StoredTileServed | main.go:238-252 | a row stored at `(z, column, row)` inside the grid is served unchanged, with its headers, for XYZ row `2^z - 1 - row`, provided no earlier row has the same address |
| Store.MissingTileNotFound | main.go:241-245 | a readable table with no row at the converted address gives 404, never a 500 or an empty 200 |
| Store.SingleTileExample | test/integration_test.go:81-110 | the tests' archive, with one tile stored at (1, 0, 1), serves it for `1/0/0` and gives 404 for `1/0/99` |
| Store.ServeMetadata | main.go:186-221 | a failed open gives 500 `Database error`; a failed query gives 500 `Metadata read error`; otherwise the JSON object has exactly one key per row name, and it is the object of `Metadata.MetadataObjectSpec`: under each name the last such row's decoding, with `minzoom` / `maxzoom` coerced |
| Store.MetadataNameExample | test/integration_test.go:63-79 | the tests' `name` row, which is not JSON, is served as the string `Test Map` |
| Metadata.Decode | main.go:204-209 | a value the JSON parser accepts is stored as its decoding; any other text is stored as the raw string |
| Metadata.Collect | main.go:201-210 | every row name is a key, and the last row's name holds that row's decoding (the whole map in `Metadata.CollectSpec`) |
| Metadata.CollectSpec | main.go:200-210 | the scan stores every row name and nothing else; under each name it keeps the decoded value of the last row with that name: the JSON value when the text parses, the raw string otherwise |
| Metadata.CoerceValue | main.go:213-216 | a value is either left alone or is a string that Atoi accepts, replaced by its integer; the result is never a string Atoi accepts, so a second pass changes nothing |
| Metadata.Normalize | main.go:212-218 | the coercion keeps the key set and changes only `minzoom` / `maxzoom`, each passed through the string-to-integer step |
| Metadata.NormalizeZoomKeys | main.go:212-218 | afterwards, a zoom key never holds a string that Atoi accepts; an integer there came from such a string or was already there |
| Metadata.NormalizeIdempotent | main.go:212-218 | coercing twice is the same as coercing once |
| Metadata.MetadataObjectSpec | main.go:200-218 | the emitted object row by row: one key per name, holding the last row's decoded value, with Atoi applied to a zoom key's string |
| Tiles.Wrap64 | main.go:238 | Go `int` arithmetic stays in the 64-bit range and is the identity on values already in it |
| Tiles.TmsRow | main.go:238 | `tmsY` is always a 64-bit value; up to zoom 62 the shift does not overflow and `tmsY` is `2^z - 1 - y` wrapped once (see `Tiles.TmsRowInGrid` and `Tiles.TmsRowInvolution` for the grid and the inverse) |
| Tiles.TmsRowInGrid | main.go:238 | for zoom up to 62 and a row inside the grid, `tmsY` is `2^z - 1 - y` with no wrap-around, and stays inside the grid |
| Tiles.TmsRowInvolution | main.go:238 | with 64-bit wrap-around, applying the row conversion twice gives back every 64-bit row, at every zoom |
| Tiles.Lookup | main.go:241-245 | the lookup finds nothing iff no row matches `(z, x, tmsY)` exactly; otherwise it returns the blob of the first matching row |
| Tiles.LookupFirst | main.go:241 | the first row stored at an address is the one returned for that address |
| Tiles.TileHeaders | main.go:247-251 | every served tile gets `Access-Control-Allow-Origin: *` and `Content-Type: application/x-protobuf`; it gets `Content-Encoding: gzip` iff it has more than two bytes and starts with 1f 8b; there are no other headers |
| Tiles.GzipSniffExamples | main.go:249 | a gzip stream gets the header; a PNG does not; the bare two-byte magic number does not |
| Sandbox.Resolve | main.go:264-284 | single-file mode accepts only the configured name and returns root/name; directory mode accepts exactly a cleaned `Join(root, req)` that starts with the root's string and exists; the accepted path is already clean; access is denied iff the prefix test fails |
| Sandbox.SingleFileResolves | main.go:265-270 | the configured name resolves to the file `root/<fileName>` in the root directory, whether or not it still exists |
| Sandbox.PlainRequestPassesPrefix | main.go:272-283 | a request without `..` segments is never refused by the prefix test; it resolves iff its joined path exists |
| Sandbox.SiblingPassesPrefix | main.go:275 | as written, with root `/d/n` the request `../n<sfx>/f` resolves to `/d/n<sfx>/f`, which is not inside the root's tree |
| Sandbox.ResolveStrict | main.go:264-284 | the corrected resolver returns only existing paths equal to the root or below `root/` |
| Sandbox.StrictNarrows | main.go:264-284 | whatever the corrected resolver accepts, the resolver as written accepts in the same way |
| Sandbox.StrictAgreesOnPlainRequests | main.go:272-283 | the two resolvers agree on every request without `..` segments |
| Sandbox.StrictRefusesSibling | main.go:275 | the corrected resolver refuses the sibling request that the one as written accepts |
| GoStrconv.Atoi | main.go:142-144 | every value Atoi returns fits in 64 bits |
| GoStrconv.AtoiIff | main.go:142-146 | Atoi succeeds exactly on an optional sign followed by one or more decimal digits whose value fits in 64 bits, and returns that value |
| GoStrconv.AtoiItoa | main.go:142-144 | formatting a 64-bit integer in decimal and parsing it back gives the integer |
| GoFilepath.Clean | main.go:273 | the cleaned path is never empty, and an absolute path stays absolute (idempotence in `GoFilepath.CleanIdempotent`) |
| GoFilepath.PathJoin | main.go:269-272 | the join is empty exactly when both elements are, and stays absolute when the first element is absolute (confinement in `GoFilepath.JoinStaysWithin`) |
| GoFilepath.CleanIdempotent | main.go:272-273 | cleaning a cleaned path changes nothing |
| GoFilepath.JoinStaysWithin | main.go:272-275 | joining a request without `..` segments onto a clean absolute root gives the root itself or a path below `root/` |
| GoFilepath.JoinPlainSegment | main.go:269 | joining one plain name onto a clean absolute directory appends it after one `/` |
| GoFilepath.Ext | main.go:114 | the extension is a suffix of the path that starts with `.` and contains no further `.` or `/`; it is empty only when every `.` is followed by a `/` |
| GoFilepath.ExtOfSuffix | main.go:114 | any suffix of that shape is the extension |
| GoStrings.ContainsIff | main.go:162 | the substring test succeeds iff the needle occurs at some index |
| GoStrings.JoinSplit | main.go:139-147 | joining the pieces of a split gives the original string back |
| GoStrings.SplitJoin | main.go:139-147 | splitting a join of separator-free pieces gives the pieces back |
| GoStrings.TrimPrefix | main.go:80 | removing a present prefix leaves the rest, which together with the prefix is the input; an absent prefix leaves the input unchanged |
| GoStrings.TrimSuffix | main.go:134 | removing a present suffix leaves the rest, which together with the suffix is the input; an absent suffix leaves the input unchanged |

## Left out

- SQLite. The database is an `Archive` value: whether it opens, and the rows
  of each table, or `None` when the query on that table fails. SQL
  evaluation, connection handling and `Scan` conversions are not modelled.
  A NULL tile blob is not modelled either.
- `http.ServeFile` and its range arithmetic. The `RawFile(path)` outcome
  records only which file is handed over. `ServeFile` also answers 400 to
  any URL path with a `..` element; that refusal is not modelled, so a
  `RawFile` outcome for such a URL stands for a 400 in the program.
- `html/template` rendering. The `Viewer` outcome records only its two
  template parameters.
- `encoding/json`:
  - parsing is an oracle, `string -> Option<Value>`;
  - a JSON number keeps its literal text, because floating point is not
    modelled;
  - encoding the response is not modelled; the outcome holds the map.
- `embed.FS`. The asset tree is the set of names it opens. Reading the file
  is not modelled, and `io.Copy` is not modelled.
- `os.Stat`. It is the set of paths it does not report missing, so other
  stat errors let a path through, as in the code. Symbolic links are not
  resolved, in the code or in the model.
- `http.Redirect`. Its URL normalisation and its HTML body are not
  modelled; the outcome holds the target.
- `subtle.ConstantTimeCompare`. It is plain equality; timing is not modelled.
- The `New` constructor:
  - `filepath.Abs`, `os.Stat`, `filepath.Base` / `Dir` and the template
    parse are not modelled;
  - `Settings.Valid` states what the constructor establishes (an absolute,
    clean root, and one path element as the file name);
  - the lemmas that need it take it as a precondition.
- `cmd/maps/main.go` (flags, logging, `ListenAndServe`). It is bootstrapping
  only.
- Go's `ServeMux`, which `cmd/maps/main.go` mounts the handler under. The
  model takes the path as the handler receives it. Whatever path cleaning
  or redirecting the mux does first is not modelled.
- Concurrency. Requests share no mutable state.
- Sandbox.SiblingPassesPrefix: the counterexample is stated for a root two
  levels deep, `/d/n`. The general claim, for roots of any depth, is not
  proved.

## Findings

| source | as written | input that shows it | evidently intended | confidence | as-written member | corrected member |
|---|---|---|---|---|---|---|
| main.go:275 | `strings.HasPrefix(clean, m.filePath)` compares strings, so a sibling directory whose name extends the root's name passes the sandbox | root `/d/n`, request `map/../n2/w.mbtiles/metadata.json`: the archive name `../n2/w.mbtiles` cleans to `/d/n2/w.mbtiles`, which starts with `/d/n`, so the metadata of that sibling archive is returned when it exists | the cleaned path must be the root itself or lie below `root/` | not executed | Sandbox.SiblingPassesPrefix | Sandbox.ResolveStrict |

Three lemmas are proved about the corrected resolver:

- `Sandbox.StrictRefusesSibling`: it refuses that request.
- `Sandbox.StrictNarrows`: it accepts nothing that the resolver as written
  refuses.
- `Sandbox.StrictAgreesOnPlainRequests`: the two agree on every request
  without `..` segments.

`Server.ServeMap` resolves archive names with the corrected resolver.
`Server.SiblingArchiveRefused` shows the input above being refused by the
whole handler. The tile route leaks the same way, because `handleMBTiles`
resolves its archive name with the same check. The raw-file route does not
leak in the program: `http.ServeFile` refuses a URL path with a `..` element
with a 400. A `ServeMux` in front of the handler may redirect requests whose
path has literal `..` segments. `r.URL.Path` is percent-decoded, though, so
`..` written as `%2e%2e` may still reach the handler.

For a configuration satisfying `Settings.Valid`, the corrected resolver
agrees with the one as written on every name without `..` segments
(`Sandbox.StrictAgreesOnPlainRequests`).

=== FILE: address.dfy ===
/** `serveMap`'s reading of the path after `map/`: a metadata request, a
    tile address, or a whole archive, tested in that order. */
module Address {
  import opened Wrappers
  import opened GoStrings
  import opened GoStrconv

  /** What the remainder of the URL asks for. */
  datatype MapRoute =
      /** `<file>/metadata.json`. */
    | MetadataOf(file: string)
      /** `<file>/<z>/<x>/<y>` with `<file>` an MBTiles archive. */
    | TileOf(file: string, z: int, x: int, y: int)
      /** The HTML viewer for a whole archive, with its two template
          parameters. */
    | ViewerOf(rootPath: string, file: string)
      /** The archive file itself. */
    | RawOf(file: string)
      /** None of the above: a plain 404. */
    | NoRoute

  const MetadataSuffix: string := "/metadata.json"

  /** The coordinate test of `serveMap`: at least four pieces, the last
      three accepted by Atoi, and an `.mbtiles` archive before them. */
  function TileAt(rel: string): (r: Option<MapRoute>)
    ensures r.Some? ==> r.value.TileOf? && HasSuffix(r.value.file, ".mbtiles")
                        && IsInt64(r.value.z) && IsInt64(r.value.x) && IsInt64(r.value.y)
  {
    var parts := Split(rel, '/');
    var n := |parts|;
    if n >= 4 && Atoi(parts[n - 3]).Some? && Atoi(parts[n - 2]).Some? && Atoi(parts[n - 1]).Some?
       && HasSuffix(Join(parts[..n - 3], '/'), ".mbtiles")
    then Some(TileOf(Join(parts[..n - 3], '/'), Atoi(parts[n - 3]).value, Atoi(parts[n - 2]).value, Atoi(parts[n - 1]).value))
    else None
  }

  /** `serveMap`'s decision, from the remainder `rel`, the `Range` header
      and the `Accept` header (each `""` when absent). */
  function ParseMap(webPath: string, rel: string, range: string, accept: string): (r: MapRoute)
    ensures r.MetadataOf? <==> HasSuffix(rel, MetadataSuffix)
    ensures r.MetadataOf? ==> r.file + MetadataSuffix == rel
    ensures r.TileOf? ==> HasSuffix(r.file, ".mbtiles") && IsInt64(r.z) && IsInt64(r.x) && IsInt64(r.y)
    ensures r.ViewerOf? || r.RawOf? ==> HasSuffix(rel, ".mbtiles") || HasSuffix(rel, ".pmtiles")
    ensures r.ViewerOf? ==> Contains(accept, "text/html")
                            && r.rootPath == webPath + "web" && r.file == webPath + "map/" + rel
    ensures r.RawOf? ==> r.file == rel
    ensures r.NoRoute? ==> !HasSuffix(rel, ".mbtiles") && !HasSuffix(rel, ".pmtiles")
  {
    if HasSuffix(rel, MetadataSuffix) then MetadataOf(TrimSuffix(rel, MetadataSuffix))
    else match TileAt(rel)
      case Some(tile) => tile
      case None =>
        if HasSuffix(rel, ".mbtiles") || HasSuffix(rel, ".pmtiles") then
          if HasSuffix(rel, ".pmtiles") && range != "" then RawOf(rel)
          else if Contains(accept, "text/html") then ViewerOf(webPath + "web", webPath + "map/" + rel)
          else RawOf(rel)
        else NoRoute
  }

  /** The URL tail a client builds for a tile: the archive name, then the
      zoom, column and row in decimal. */
  function TileUrl(file: string, z: int, x: int, y: int): string
  {
    file + "/" + Itoa(z) + "/" + Itoa(x) + "/" + Itoa(y)
  }

  /** The last piece of a split is a suffix of the split string. */
  lemma LastPieceIsSuffix(s: string, sep: char)
    ensures HasSuffix(s, Split(s, sep)[|Split(s, sep)| - 1])
  {
    var parts := Split(s, sep);
    var n := |parts|;
    JoinSplit(s, sep);
    if n > 1 {
      JoinAppend(parts[..n - 1], [parts[n - 1]], sep);
      assert parts[..n - 1] + [parts[n - 1]] == parts;
    }
  }

  /** A number Atoi accepts ends in a digit. */
  lemma AtoiEndsInDigit(s: string)
    ensures Atoi(s).Some? ==> |s| >= 1 && IsDigit(s[|s| - 1])
  {
    AtoiIff(s);
    if IsDecimal(s) {
      var u := Unsigned(s);
      assert u[|u| - 1] == s[|s| - 1];
    }
  }

  /** A string ends in the last character of each of its suffixes. */
  lemma SuffixLastChar(s: string, t: string)
    requires |t| >= 1
    ensures HasSuffix(s, t) ==> |s| >= 1 && s[|s| - 1] == t[|t| - 1]
  {
    if HasSuffix(s, t) {
      assert s[|s| - |t|..][|t| - 1] == t[|t| - 1];
    }
  }

  /** A string whose last character is not a digit does not end in a
      piece Atoi accepts. */
  lemma LastPieceNotNumber(s: string, sep: char)
    requires |s| >= 1 && !IsDigit(s[|s| - 1])
    ensures Atoi(Split(s, sep)[|Split(s, sep)| - 1]).None?
  {
    var last := Split(s, sep)[|Split(s, sep)| - 1];
    LastPieceIsSuffix(s, sep);
    AtoiEndsInDigit(last);
    if |last| >= 1 {
      SuffixLastChar(s, last);
    }
  }

  /** A string ending in a digit ends in none of the three suffixes the
      parser tests. */
  lemma DigitEndNoSuffix(rel: string)
    requires |rel| >= 1 && IsDigit(rel[|rel| - 1])
    ensures !HasSuffix(rel, MetadataSuffix) && !HasSuffix(rel, ".mbtiles") && !HasSuffix(rel, ".pmtiles")
  {
    SuffixLastChar(rel, MetadataSuffix);
    SuffixLastChar(rel, ".mbtiles");
    SuffixLastChar(rel, ".pmtiles");
  }

  /** Three pieces joined by the separator. */
  lemma JoinThree(a: string, b: string, c: string)
    ensures Join([a, b, c], '/') == a + "/" + b + "/" + c
  {
    assert [a, b, c][1..] == [b, c] && [b, c][1..] == [c];
    assert Join([b, c], '/') == b + "/" + c;
  }

  /** Joining a non-empty run of pieces followed by three more puts one
      separator before each of the three. */
  lemma JoinLastThree(front: seq<string>, a: string, b: string, c: string)
    requires |front| >= 1
    ensures Join(front + [a, b, c], '/') == Join(front, '/') + "/" + a + "/" + b + "/" + c
  {
    JoinAppend(front, [a, b, c], '/');
    JoinThree(a, b, c);
    Regroup(Join(front, '/'), a, b, c);
  }

  lemma Regroup(j: string, a: string, b: string, c: string)
    ensures j + ['/'] + (a + "/" + b + "/" + c) == j + "/" + a + "/" + b + "/" + c
  {
  }

  /** The pieces of `file/a/b/c` for separator-free `a`, `b`, `c`. */
  lemma SplitAddress(file: string, a: string, b: string, c: string)
    requires '/' !in a && '/' !in b && '/' !in c
    ensures Split(file + "/" + a + "/" + b + "/" + c, '/') == Split(file, '/') + [a, b, c]
  {
    SplitConcat(file, a + "/" + b + "/" + c, '/');
    assert file + "/" + a + "/" + b + "/" + c == file + ['/'] + (a + "/" + b + "/" + c);
    SplitThree(a, b, c);
  }

  /** A metadata request names the archive before the suffix, whatever that
      archive is called and whatever the headers say. */
  lemma MetadataRoundTrip(webPath: string, file: string, range: string, accept: string)
    ensures ParseMap(webPath, file + MetadataSuffix, range, accept) == MetadataOf(file)
  {
  }

  /** An MBTiles archive followed by three separator-free pieces that Atoi
      accepts is a tile address: the archive is everything before them, and
      the coordinates are their values. */
  lemma TileAddress(webPath: string, file: string, a: string, b: string, c: string, range: string, accept: string)
    requires HasSuffix(file, ".mbtiles")
    requires '/' !in a && '/' !in b && '/' !in c
    requires Atoi(a).Some? && Atoi(b).Some? && Atoi(c).Some?
    ensures ParseMap(webPath, file + "/" + a + "/" + b + "/" + c, range, accept)
            == TileOf(file, Atoi(a).value, Atoi(b).value, Atoi(c).value)
  {
    var rel := file + "/" + a + "/" + b + "/" + c;
    AtoiEndsInDigit(c);
    assert rel[|rel| - 1] == c[|c| - 1];
    DigitEndNoSuffix(rel);
    TileAtAddress(file, a, b, c);
  }

  /** The coordinate test on `file/a/b/c`. */
  lemma TileAtAddress(file: string, a: string, b: string, c: string)
    requires HasSuffix(file, ".mbtiles")
    requires '/' !in a && '/' !in b && '/' !in c
    requires Atoi(a).Some? && Atoi(b).Some? && Atoi(c).Some?
    ensures TileAt(file + "/" + a + "/" + b + "/" + c) == Some(TileOf(file, Atoi(a).value, Atoi(b).value, Atoi(c).value))
  {
    var rel := file + "/" + a + "/" + b + "/" + c;
    SplitAddress(file, a, b, c);
    var parts := Split(rel, '/');
    var n := |parts|;
    assert parts[..n - 3] == Split(file, '/');
    assert parts[n - 3] == a && parts[n - 2] == b && parts[n - 1] == c;
    JoinSplit(file, '/');
  }

  /** Every decimal numeral of Itoa is one path piece. */
  lemma ItoaNoSlash(n: int)
    ensures '/' !in Itoa(n)
  {
    var s := Itoa(n);
    var d := if n < 0 then Digits(-n) else Digits(n);
    assert forall i :: 0 <= i < |d| ==> d[i] != '/';
    if n < 0 {
      assert forall i :: 1 <= i < |s| ==> s[i] == d[i - 1];
    }
  }

  /** Formatting a tile's coordinates into a URL and parsing it back gives
      the same archive and coordinates. */
  lemma TileUrlRoundTrip(webPath: string, file: string, z: int, x: int, y: int, range: string, accept: string)
    requires HasSuffix(file, ".mbtiles") && IsInt64(z) && IsInt64(x) && IsInt64(y)
    ensures ParseMap(webPath, TileUrl(file, z, x, y), range, accept) == TileOf(file, z, x, y)
  {
    ItoaNoSlash(z);
    ItoaNoSlash(x);
    ItoaNoSlash(y);
    AtoiItoa(z);
    AtoiItoa(x);
    AtoiItoa(y);
    TileAddress(webPath, file, Itoa(z), Itoa(x), Itoa(y), range, accept);
  }

  /** A tile route is the coordinate test's answer. */
  lemma TileRouteIsTileAt(webPath: string, rel: string, range: string, accept: string)
    requires ParseMap(webPath, rel, range, accept).TileOf?
    ensures TileAt(rel) == Some(ParseMap(webPath, rel, range, accept))
  {
  }

  /** The pieces behind an answer of the coordinate test. */
  lemma TileAtShape(rel: string) returns (a: string, b: string, c: string)
    requires TileAt(rel).Some?
    ensures var t := TileAt(rel).value;
            && rel == t.file + "/" + a + "/" + b + "/" + c
            && '/' !in a && '/' !in b && '/' !in c
            && Atoi(a) == Some(t.z) && Atoi(b) == Some(t.x) && Atoi(c) == Some(t.y)
  {
    var parts := Split(rel, '/');
    var n := |parts|;
    a, b, c := parts[n - 3], parts[n - 2], parts[n - 1];
    assert parts == parts[..n - 3] + [a, b, c];
    JoinSplit(rel, '/');
    JoinLastThree(parts[..n - 3], a, b, c);
  }

  /** Conversely, every tile route comes from such an address: the remainder
      is the archive followed by three pieces that Atoi maps to the
      coordinates. */
  lemma TileShape(webPath: string, rel: string, range: string, accept: string) returns (a: string, b: string, c: string)
    requires ParseMap(webPath, rel, range, accept).TileOf?
    ensures var t := ParseMap(webPath, rel, range, accept);
            && rel == t.file + "/" + a + "/" + b + "/" + c
            && '/' !in a && '/' !in b && '/' !in c
            && Atoi(a) == Some(t.z) && Atoi(b) == Some(t.x) && Atoi(c) == Some(t.y)
  {
    TileRouteIsTileAt(webPath, rel, range, accept);
    a, b, c := TileAtShape(rel);
  }

  /** Coordinates after an archive that is not MBTiles never make a tile
      route, and the whole path then names no archive: a plain 404. This
      covers `<name>.pmtiles/<z>/<x>/<y>`. */
  lemma CoordinatesNeedMBTiles(webPath: string, file: string, a: string, b: string, c: string, range: string, accept: string)
    requires !HasSuffix(file, ".mbtiles")
    requires '/' !in a && '/' !in b && '/' !in c
    requires Atoi(c).Some?
    ensures ParseMap(webPath, file + "/" + a + "/" + b + "/" + c, range, accept) == NoRoute
  {
    var rel := file + "/" + a + "/" + b + "/" + c;
    AtoiEndsInDigit(c);
    assert rel[|rel| - 1] == c[|c| - 1];
    DigitEndNoSuffix(rel);
    SplitAddress(file, a, b, c);
    var parts := Split(rel, '/');
    var n := |parts|;
    assert parts[..n - 3] == Split(file, '/');
    JoinSplit(file, '/');
  }

  /** A `.pmtiles` archive name ends differently from an MBTiles one. */
  lemma PmtilesIsNotMBTiles(file: string)
    requires HasSuffix(file, ".pmtiles")
    ensures !HasSuffix(file, ".mbtiles")
  {
    assert file[|file| - 7] == 'p';
  }

  /** A remainder naming a whole archive is never read as metadata or as a
      tile: it is raw for a `.pmtiles` range request whatever the `Accept`
      header says, else the viewer when HTML is acceptable, else raw. */
  lemma WholeArchive(webPath: string, rel: string, range: string, accept: string)
    requires HasSuffix(rel, ".mbtiles") || HasSuffix(rel, ".pmtiles")
    ensures ParseMap(webPath, rel, range, accept)
            == if HasSuffix(rel, ".pmtiles") && range != "" then RawOf(rel)
               else if Contains(accept, "text/html") then ViewerOf(webPath + "web", webPath + "map/" + rel)
               else RawOf(rel)
  {
    assert rel[|rel| - 1] == 's';
    assert !HasSuffix(rel, MetadataSuffix);
    LastPieceNotNumber(rel, '/');
  }

  /** A remainder that ends in neither a digit nor an archive suffix, and is
      not a metadata request, is no route at all. */
  lemma NonArchiveNoRoute(webPath: string, rel: string, range: string, accept: string)
    requires |rel| >= 1 && !IsDigit(rel[|rel| - 1])
    requires !HasSuffix(rel, MetadataSuffix) && !HasSuffix(rel, ".mbtiles") && !HasSuffix(rel, ".pmtiles")
    ensures ParseMap(webPath, rel, range, accept) == NoRoute
  {
    LastPieceNotNumber(rel, '/');
    assert TileAt(rel).None?;
  }
}

=== FILE: auth.dfy ===
/** The optional HTTP Basic gate. */
module Auth {
  import opened GoStrings

  /** `checkAuth`: the `Authorization` header (`""` when absent) is accepted
      when it starts with `Basic ` and the rest equals the configured
      secret byte for byte. The secret is the already-encoded credential;
      nothing is base64-decoded. The constant-time comparison is plain
      equality here. Exactly one header value passes the gate: `Basic `
      and the secret. */
  function CheckAuth(secret: string, header: string): (ok: bool)
    ensures ok <==> header == "Basic " + secret
  {
    assert |header| >= 6 ==> header == header[..6] + header[6..];
    HasPrefix(header, "Basic ") && header[6..] == secret
  }
}

=== FILE: filepath.dfy ===
/** Go's `path/filepath` on a Unix system, where the separator is `/`:
    `Clean`, two-element `Join` and `Ext`. Everything here is lexical; no
    symbolic link is looked at. */
module GoFilepath {
  import opened GoStrings

  /** A segment list of the shape `Clean` leaves behind: no empty, `.` or
      separator-bearing segment, `..` only as a leading run, and no `..` at
      all below the root. */
  ghost predicate Normal(st: seq<string>, rooted: bool)
  {
    && (forall i :: 0 <= i < |st| ==> st[i] != "" && st[i] != "." && '/' !in st[i])
    && (rooted ==> forall i :: 0 <= i < |st| ==> st[i] != "..")
    && (forall i, j :: 0 <= i < j < |st| && st[j] == ".." ==> st[i] == "..")
  }

  /** One segment of `Clean`'s scan: an empty segment or `.` is dropped;
      `..` removes the last real segment, is dropped at the root, and is
      kept when a relative path cannot back up further. */
  function Step(st: seq<string>, seg: string, rooted: bool): seq<string>
  {
    if seg == "" || seg == "." then st
    else if seg == ".." then
      if |st| > 0 && st[|st| - 1] != ".." then st[..|st| - 1]
      else if rooted then st
      else st + [".."]
    else st + [seg]
  }

  /** `Step` over the segments from left to right. */
  function Fold(st: seq<string>, segs: seq<string>, rooted: bool): seq<string>
    decreases |segs|
  {
    if |segs| == 0 then st else Fold(Step(st, segs[0], rooted), segs[1..], rooted)
  }

  predicate Rooted(p: string)
  {
    |p| > 0 && p[0] == '/'
  }

  /** Writes a segment list back as a path: `/` in front when rooted, and
      `.` for an empty relative path. */
  function Render(st: seq<string>, rooted: bool): string
  {
    var body := Join(st, '/');
    if rooted then "/" + body else if body == "" then "." else body
  }

  /** `filepath.Clean`: the shortest lexically equivalent path. */
  function Clean(p: string): (r: string)
    ensures r != ""
    ensures Rooted(p) ==> Rooted(r)
  {
    Render(Fold([], Split(p, '/'), Rooted(p)), Rooted(p))
  }

  /** `filepath.Join(a, b)`: the elements from the first non-empty one on,
      joined by `/` and cleaned; "" when both are empty. */
  function PathJoin(a: string, b: string): (r: string)
    ensures r == "" <==> a == "" && b == ""
    ensures Rooted(a) ==> Rooted(r)
  {
    if a != "" then Clean(a + "/" + b)
    else if b != "" then Clean(b)
    else ""
  }

  lemma {:induction false} FoldAppend(st: seq<string>, a: seq<string>, b: seq<string>, rooted: bool)
    ensures Fold(st, a + b, rooted) == Fold(Fold(st, a, rooted), b, rooted)
    decreases |a|
  {
    if |a| > 0 {
      assert (a + b)[1..] == a[1..] + b;
      FoldAppend(Step(st, a[0], rooted), a[1..], b, rooted);
    } else {
      assert a + b == b;
    }
  }

  lemma StepNormal(st: seq<string>, seg: string, rooted: bool)
    requires Normal(st, rooted) && '/' !in seg
    ensures Normal(Step(st, seg, rooted), rooted)
  {
    if seg == ".." && !(|st| > 0 && st[|st| - 1] != "..") && !rooted {
      var r := st + [".."];
      forall i, j | 0 <= i < j < |r| && r[j] == ".." ensures r[i] == ".." {
        if j < |st| {
          assert st[j] == "..";
        } else if i < |st| - 1 {
          assert st[|st| - 1] == "..";
        }
      }
    }
  }

  /** The scan only ever produces a `Normal` segment list. */
  lemma {:induction false} FoldNormal(st: seq<string>, segs: seq<string>, rooted: bool)
    requires Normal(st, rooted)
    requires forall i :: 0 <= i < |segs| ==> '/' !in segs[i]
    ensures Normal(Fold(st, segs, rooted), rooted)
    decreases |segs|
  {
    if |segs| > 0 {
      StepNormal(st, segs[0], rooted);
      FoldNormal(Step(st, segs[0], rooted), segs[1..], rooted);
    }
  }

  /** A list that is already `Normal` passes through the scan unchanged. */
  lemma {:induction false} FoldKeeps(st: seq<string>, segs: seq<string>, rooted: bool)
    requires Normal(st + segs, rooted)
    ensures Fold(st, segs, rooted) == st + segs
    decreases |segs|
  {
    if |segs| > 0 {
      var all := st + segs;
      assert all[|st|] == segs[0];
      if segs[0] == ".." {
        if |st| > 0 {
          assert all[|st| - 1] == st[|st| - 1];
        }
      }
      assert Step(st, segs[0], rooted) == st + [segs[0]];
      assert st + [segs[0]] + segs[1..] == all;
      FoldKeeps(st + [segs[0]], segs[1..], rooted);
    }
  }

  /** The segments a clean path is made of. */
  function Stack(p: string): seq<string>
  {
    Fold([], Split(p, '/'), Rooted(p))
  }

  lemma StackNormal(p: string)
    ensures Normal(Stack(p), Rooted(p))
  {
    FoldNormal([], Split(p, '/'), Rooted(p));
  }

  /** The segments of a rooted rendering: an empty piece for the leading
      `/`, then the list itself (one more empty piece for the bare root). */
  lemma SplitRootedRender(st: seq<string>)
    requires forall i :: 0 <= i < |st| ==> '/' !in st[i]
    ensures Split(Render(st, true), '/') == [""] + (if |st| == 0 then [""] else st)
  {
    SplitConcat("", Join(st, '/'), '/');
    assert Render(st, true) == "" + "/" + Join(st, '/');
    if |st| > 0 {
      SplitJoin(st, '/');
    }
  }

  /** A rooted `Normal` list renders to a path that cleans to itself. */
  lemma CleanRenderRooted(st: seq<string>)
    requires Normal(st, true)
    ensures Clean(Render(st, true)) == Render(st, true)
  {
    var c := Render(st, true);
    SplitRootedRender(st);
    assert Rooted(c);
    var segs := Split(c, '/');
    assert Fold([], segs, true) == Fold([], segs[1..], true);
    if |st| > 0 {
      assert segs[1..] == st;
      FoldKeeps([], st, true);
      assert [] + st == st;
      assert Fold([], segs, true) == st;
      assert Clean(c) == Render(Fold([], segs, true), true);
    } else {
      assert segs[1..] == [""];
      assert Fold([], [""], true) == Fold([], [], true);
    }
  }

  /** A relative `Normal` list renders to a path that cleans to itself. */
  lemma CleanRenderRelative(st: seq<string>)
    requires Normal(st, false)
    ensures Clean(Render(st, false)) == Render(st, false)
  {
    var c := Render(st, false);
    if |st| == 0 {
      assert c == ".";
      SplitNoSep(".", '/');
    } else {
      SplitJoin(st, '/');
      JoinFirstChar(st);
      assert c == Join(st, '/');
      assert !Rooted(c);
      FoldKeeps([], st, false);
      assert [] + st == st;
      assert Clean(c) == Render(Fold([], st, false), false);
    }
  }

  /** Cleaning is idempotent: a cleaned path is its own clean form. */
  lemma CleanIdempotent(p: string)
    ensures Clean(Clean(p)) == Clean(p)
  {
    StackNormal(p);
    if Rooted(p) {
      CleanRenderRooted(Stack(p));
    } else {
      CleanRenderRelative(Stack(p));
    }
  }

  /** The first character of a join of non-empty pieces is the first
      piece's first character. */
  lemma JoinFirstChar(st: seq<string>)
    requires |st| >= 1 && |st[0]| >= 1
    ensures |Join(st, '/')| >= 1 && Join(st, '/')[0] == st[0][0]
  {
  }

  /** `p` is `root` itself or lies in root's directory tree, compared
      segment-wise rather than as a bare string prefix. */
  predicate Within(root: string, p: string)
  {
    p == root || HasPrefix(p, if HasSuffix(root, "/") then root else root + "/")
  }

  /** The non-empty, non-`.` segments of a list. */
  function Kept(segs: seq<string>): seq<string>
    decreases |segs|
  {
    if |segs| == 0 then []
    else if segs[0] == "" || segs[0] == "." then Kept(segs[1..])
    else [segs[0]] + Kept(segs[1..])
  }

  lemma {:induction false} FoldNoParent(st: seq<string>, segs: seq<string>, rooted: bool)
    requires forall i :: 0 <= i < |segs| ==> segs[i] != ".."
    ensures Fold(st, segs, rooted) == st + Kept(segs)
    decreases |segs|
  {
    if |segs| > 0 {
      FoldNoParent(Step(st, segs[0], rooted), segs[1..], rooted);
    }
  }

  /** A rooted path joined with a request cleans to the root's segments
      scanned further by the request's segments. */
  lemma CleanJoinStack(root: string, req: string)
    requires Rooted(root)
    ensures Clean(root + "/" + req) == Render(Fold(Stack(root), Split(req, '/'), true), true)
  {
    var j := root + "/" + req;
    SplitConcat(root, req, '/');
    FoldAppend([], Split(root, '/'), Split(req, '/'), true);
    assert Rooted(j);
  }

  /** Rendering a longer rooted segment list extends the rendering of its
      front past one separator. */
  lemma RenderExtends(rs: seq<string>, k: seq<string>)
    requires |rs| >= 1 && |k| >= 1
    requires forall i :: 0 <= i < |rs| ==> rs[i] != "" && '/' !in rs[i]
    ensures HasPrefix(Render(rs + k, true), Render(rs, true) + "/")
    ensures !HasSuffix(Render(rs, true), "/")
  {
    JoinAppend(rs, k, '/');
    JoinLastChar(rs);
    var root := Render(rs, true);
    var p := Render(rs + k, true);
    assert p == root + "/" + Join(k, '/');
    assert p[..|root + "/"|] == root + "/";
    assert root[|root| - 1] == Join(rs, '/')[|Join(rs, '/')| - 1];
  }

  /** Joining a request without `..` segments onto a clean absolute root
      never leaves the root's tree. */
  lemma JoinStaysWithin(root: string, req: string)
    requires Rooted(root) && Clean(root) == root
    requires forall i :: 0 <= i < |Split(req, '/')| ==> Split(req, '/')[i] != ".."
    ensures Within(root, Clean(PathJoin(root, req)))
  {
    var rs := Stack(root);
    var k := Kept(Split(req, '/'));
    CleanJoinStack(root, req);
    FoldNoParent(rs, Split(req, '/'), true);
    CleanIdempotent(root + "/" + req);
    var p := Clean(PathJoin(root, req));
    assert p == Render(rs + k, true);
    assert root == Render(rs, true);
    if |k| == 0 {
      assert rs + k == rs;
    } else if |rs| == 0 {
      assert rs + k == k;
      assert root == "/";
    } else {
      StackNormal(root);
      RenderExtends(rs, k);
    }
  }

  /** The last character of a join of non-empty pieces is the last piece's
      last character. */
  lemma {:induction false} JoinLastChar(st: seq<string>)
    requires |st| >= 1 && forall i :: 0 <= i < |st| ==> st[i] != "" && '/' !in st[i]
    ensures |Join(st, '/')| >= 1 && Join(st, '/')[|Join(st, '/')| - 1] != '/'
    decreases |st|
  {
    var l := st[|st| - 1];
    assert l[|l| - 1] in l;
    if |st| > 1 {
      JoinLastChar(st[1..]);
    }
  }

  /** A single path element that `Clean` keeps as it is. */
  predicate PlainSegment(seg: string)
  {
    seg != "" && seg != "." && seg != ".." && '/' !in seg
  }

  /** Joining one plain element onto a clean absolute directory appends it
      with one separator. */
  lemma JoinPlainSegment(root: string, seg: string)
    requires Rooted(root) && Clean(root) == root && PlainSegment(seg)
    ensures PathJoin(root, seg) == if root == "/" then "/" + seg else root + "/" + seg
  {
    var rs := Stack(root);
    SplitNoSep(seg, '/');
    CleanJoinStack(root, seg);
    assert Fold(rs, [seg], true) == rs + [seg];
    assert root == Render(rs, true);
    if |rs| == 0 {
      assert rs + [seg] == [seg];
    } else {
      JoinAppend(rs, [seg], '/');
      StackNormal(root);
      JoinFirstChar(rs);
    }
  }

  /** `filepath.Ext`: the suffix from the last `.` of the final path
      element, or "" when that element has no `.`. */
  function Ext(path: string): (e: string)
    ensures e != "" ==> HasSuffix(path, e) && e[0] == '.'
    ensures e != "" ==> forall i :: 1 <= i < |e| ==> e[i] != '.' && e[i] != '/'
    ensures e == "" ==> forall i :: 0 <= i < |path| && path[i] == '.' ==> '/' in path[i + 1..]
    decreases |path|
  {
    if |path| == 0 then ""
    else
      var last := path[|path| - 1];
      if last == '/' then
        assert forall i :: 0 <= i < |path| && path[i] == '.' ==> '/' in path[i + 1..] by {
          forall i | 0 <= i < |path| && path[i] == '.' ensures '/' in path[i + 1..] {
            assert path[i + 1..][|path| - 2 - i] == '/';
          }
        }
        ""
      else if last == '.' then "."
      else
        var front := path[..|path| - 1];
        var e := Ext(front);
        if e == "" then
          assert forall i :: 0 <= i < |path| && path[i] == '.' ==> '/' in path[i + 1..] by {
            forall i | 0 <= i < |path| && path[i] == '.' ensures '/' in path[i + 1..] {
              assert front[i] == '.';
              var m :| 0 <= m < |front[i + 1..]| && front[i + 1..][m] == '/';
              assert path[i + 1..][m] == '/';
            }
          }
          ""
        else
          assert path == front + [last];
          e + [last]
  }

  /** `Ext` is pinned down by its contract: a suffix that starts with `.`
      and has no further `.` or `/` is the extension. */
  lemma ExtOfSuffix(path: string, ext: string)
    requires |ext| >= 1 && ext[0] == '.' && HasSuffix(path, ext)
    requires forall i :: 1 <= i < |ext| ==> ext[i] != '.' && ext[i] != '/'
    ensures Ext(path) == ext
  {
    var e := Ext(path);
    var k := |path| - |ext|;
    assert path[k..] == ext;
    assert path[k] == '.';
    assert path[k + 1..] == ext[1..];
    assert e != "";
    var m := |path| - |e|;
    assert path[m..] == e;
    assert forall j :: k < j < |path| ==> path[j] == ext[j - k];
    assert forall j :: m < j < |path| ==> path[j] == e[j - m];
    assert m == k;
  }
}

=== FILE: metadata.dfy ===
/** The metadata side of the MBTiles archive: folding the `(name, value)`
    rows of the `metadata` table into one object, decoding each value as
    JSON when it parses and keeping it as a string otherwise, then turning
    integer-looking `minzoom` / `maxzoom` strings into integers. */
module Metadata {
  import opened Wrappers
  import opened GoStrconv

  /** A value as Go holds it in `map[string]interface{}` after
      `json.Unmarshal`, plus the `int` the zoom coercion stores. A raw
      string and a JSON-decoded string are the same Go type, so both are
      `Str`. A JSON number is kept as its literal text; the model does not
      look at its floating-point value. */
  datatype Value =
    | Null
    | Bool(b: bool)
    | Number(literal: string)
    | Str(s: string)
    | Array(items: seq<Value>)
    | Object(fields: map<string, Value>)
    | Int(i: int)

  /** One row of the `metadata` table. */
  datatype MetaRow = MetaRow(name: string, value: string)

  /** The stored form of one text value: its JSON decoding when `parse`
      (standing for `json.Unmarshal`) accepts it, else the raw string. */
  function Decode(parse: string -> Option<Value>, text: string): (r: Value)
    ensures parse(text).Some? ==> r == parse(text).value
    ensures parse(text).None? ==> r == Str(text)
  {
    match parse(text)
    case Some(v) => v
    case None => Str(text)
  }

  /** Row `i` is the last row carrying its name. */
  ghost predicate IsLast(rows: seq<MetaRow>, i: int)
    requires 0 <= i < |rows|
  {
    forall j :: i < j < |rows| ==> rows[j].name != rows[i].name
  }

  /** The scan loop of the metadata handler, one row at a time. */
  function Collect(parse: string -> Option<Value>, rows: seq<MetaRow>): (r: map<string, Value>)
    ensures forall i :: 0 <= i < |rows| ==> rows[i].name in r
    ensures |rows| > 0 ==> r[rows[|rows| - 1].name] == Decode(parse, rows[|rows| - 1].value)
    decreases |rows|
  {
    if |rows| == 0 then map[]
    else
      var n := |rows| - 1;
      Collect(parse, rows[..n])[rows[n].name := Decode(parse, rows[n].value)]
  }

  /** The scan stores every row under its name and nothing else, and a later
      row with the same name overwrites an earlier one: the stored value
      under each name is the decoding of the last row carrying it. */
  lemma CollectSpec(parse: string -> Option<Value>, rows: seq<MetaRow>)
    ensures forall i :: 0 <= i < |rows| ==> rows[i].name in Collect(parse, rows)
    ensures forall k :: k in Collect(parse, rows) ==> exists i :: 0 <= i < |rows| && rows[i].name == k
    ensures forall i :: 0 <= i < |rows| && IsLast(rows, i) ==>
              Collect(parse, rows)[rows[i].name] == Decode(parse, rows[i].value)
  {
    CollectKeys(parse, rows);
    CollectLast(parse, rows);
  }

  /** The keys of the scan's map are exactly the row names. */
  lemma {:induction false} CollectKeys(parse: string -> Option<Value>, rows: seq<MetaRow>)
    ensures forall i :: 0 <= i < |rows| ==> rows[i].name in Collect(parse, rows)
    ensures forall k :: k in Collect(parse, rows) ==> exists i :: 0 <= i < |rows| && rows[i].name == k
    decreases |rows|
  {
    if |rows| > 0 {
      var n := |rows| - 1;
      var front := rows[..n];
      CollectKeys(parse, front);
      var r := Collect(parse, rows);
      assert r.Keys == Collect(parse, front).Keys + {rows[n].name};
      forall i | 0 <= i < |rows| ensures rows[i].name in r {
        if i < n {
          assert front[i] == rows[i];
        }
      }
      forall k | k in r ensures exists i :: 0 <= i < |rows| && rows[i].name == k {
        if k != rows[n].name {
          var i :| 0 <= i < |front| && front[i].name == k;
          assert rows[i].name == k;
        }
      }
    }
  }

  /** Under each name the scan keeps the decoding of the last row with it. */
  lemma {:induction false} CollectLast(parse: string -> Option<Value>, rows: seq<MetaRow>)
    ensures forall i :: 0 <= i < |rows| && IsLast(rows, i) ==>
              rows[i].name in Collect(parse, rows) && Collect(parse, rows)[rows[i].name] == Decode(parse, rows[i].value)
    decreases |rows|
  {
    if |rows| > 0 {
      var n := |rows| - 1;
      var front := rows[..n];
      CollectLast(parse, front);
      var m := Collect(parse, front);
      var r := Collect(parse, rows);
      assert r == m[rows[n].name := Decode(parse, rows[n].value)];
      forall i | 0 <= i < |rows| && IsLast(rows, i)
        ensures rows[i].name in r && r[rows[i].name] == Decode(parse, rows[i].value)
      {
        if i < n {
          assert front[i] == rows[i];
          assert rows[i].name != rows[n].name;
          assert IsLast(front, i) by {
            forall j | i < j < |front| ensures front[j].name != front[i].name {
              assert front[j] == rows[j];
            }
          }
        }
      }
    }
  }

  /** The two keys the handler coerces to integers. */
  predicate IsZoomKey(k: string)
  {
    k == "minzoom" || k == "maxzoom"
  }

  /** One step of the coercion: a string value that `strconv.Atoi` accepts
      becomes that integer; anything else is left as it is. */
  function CoerceValue(v: Value): (r: Value)
    ensures r == v || (v.Str? && Atoi(v.s).Some? && r == Int(Atoi(v.s).value))
    ensures !(r.Str? && Atoi(r.s).Some?)
  {
    if v.Str? && Atoi(v.s).Some? then Int(Atoi(v.s).value) else v
  }

  /** `if s, ok := meta[k].(string); ok { if i, err := Atoi(s); err == nil
      { meta[k] = i } }` for one key. */
  function CoerceKey(m: map<string, Value>, k: string): map<string, Value>
  {
    if k in m then m[k := CoerceValue(m[k])] else m
  }

  /** The pass over `minzoom` then `maxzoom`, run after the whole scan. */
  function Normalize(m: map<string, Value>): (r: map<string, Value>)
    ensures r.Keys == m.Keys
    ensures forall k :: k in m && !IsZoomKey(k) ==> r[k] == m[k]
    ensures forall k :: k in m && IsZoomKey(k) ==> r[k] == CoerceValue(m[k])
  {
    CoerceKey(CoerceKey(m, "minzoom"), "maxzoom")
  }

  /** After normalisation no zoom key holds a string that Atoi accepts, and
      every zoom key holding an integer came from such a string or was
      already that integer. */
  lemma NormalizeZoomKeys(m: map<string, Value>, k: string)
    requires k in m && IsZoomKey(k)
    ensures Normalize(m)[k].Str? ==> Atoi(Normalize(m)[k].s).None?
    ensures Normalize(m)[k].Int? ==>
              m[k] == Normalize(m)[k] || (m[k].Str? && Atoi(m[k].s) == Some(Normalize(m)[k].i))
  {
  }

  /** Normalising twice changes nothing more. */
  lemma NormalizeIdempotent(m: map<string, Value>)
    ensures Normalize(Normalize(m)) == Normalize(m)
  {
    var r := Normalize(m);
    var rr := Normalize(r);
    assert forall k :: k in r ==> rr[k] == r[k];
  }

  /** The stored object for a metadata table: scan, then zoom coercion. */
  function MetadataObject(parse: string -> Option<Value>, rows: seq<MetaRow>): map<string, Value>
  {
    Normalize(Collect(parse, rows))
  }

  /** The object the handler emits, stated row by row: one entry per name
      in the table, holding the last such row's decoded value, coerced to
      an integer for the two zoom keys when Atoi accepts the string. */
  lemma MetadataObjectSpec(parse: string -> Option<Value>, rows: seq<MetaRow>)
    ensures forall i :: 0 <= i < |rows| ==> rows[i].name in MetadataObject(parse, rows)
    ensures forall k :: k in MetadataObject(parse, rows) ==> exists i :: 0 <= i < |rows| && rows[i].name == k
    ensures forall i :: 0 <= i < |rows| && IsLast(rows, i) && !IsZoomKey(rows[i].name) ==>
              MetadataObject(parse, rows)[rows[i].name] == Decode(parse, rows[i].value)
    ensures forall i :: 0 <= i < |rows| && IsLast(rows, i) && IsZoomKey(rows[i].name) ==>
              MetadataObject(parse, rows)[rows[i].name] == CoerceValue(Decode(parse, rows[i].value))
  {
    CollectSpec(parse, rows);
  }
}

=== FILE: outcomes.dfy ===
/** What the handler does with one request. Each case stands for one way
    the Go handler writes its response. */
module Outcomes {
  import opened Tiles
  import opened Metadata

  /** The `WWW-Authenticate` challenge sent with every 401. */
  const Challenge: string := "Basic realm=\"Maps\""

  /** Body of the 401 the gate writes. */
  const UnauthorizedText: string := "Unauthorized"

  /** Body of `http.NotFound`. */
  const PageNotFound: string := "404 page not found"

  datatype Outcome =
      /** 401 with `WWW-Authenticate: <challenge>` and a plain-text message. */
    | Unauthorized(challenge: string, message: string)
      /** 404 with a plain-text message. */
    | NotFound(message: string)
      /** 302 to `location`. */
    | Redirect(location: string)
      /** 200 with a plain-text message. */
    | Info(message: string)
      /** 200: an embedded asset copied out with the given `Content-Type`. */
    | Asset(fsPath: string, contentType: string)
      /** 200, `Content-Type: application/json`: the metadata object. */
    | MetadataJson(meta: map<string, Value>)
      /** 200: a tile blob with its headers. */
    | Tile(headers: map<string, string>, body: seq<byte>)
      /** 200, `Content-Type: text/html; charset=utf-8`: the viewer page
          rendered with its two template parameters. */
    | Viewer(rootPath: string, file: string)
      /** The file at `path` handed to `http.ServeFile`, which does the
          range arithmetic. */
    | RawFile(path: string)
      /** 500 with a plain-text message. */
    | ServerError(message: string)
      /** A run-time panic: the handler writes nothing. */
    | Panic
}

=== FILE: sandbox.dfy ===
/** `resolveFilePath`: turns the archive name taken from the URL into a
    path on disk, in single-file mode or confined to the root directory. */
module Sandbox {
  import opened GoStrings
  import opened GoFilepath
  import opened Settings

  /** The three errors of `resolveFilePath`, or the resolved path. */
  datatype Resolution = Resolved(path: string) | Mismatch | AccessDenied | Missing

  /** `resolveFilePath` as written. `present` holds the paths for which
      `os.Stat` does not report "does not exist"; any other stat error lets
      the path through, as in the code. */
  function Resolve(cfg: Config, present: set<string>, req: string): (r: Resolution)
    ensures cfg.isFile ==> (r.Resolved? <==> req == cfg.fileName)
    ensures cfg.isFile && r.Resolved? ==> r.path == PathJoin(cfg.root, cfg.fileName)
    ensures !cfg.isFile ==> (r.Resolved? <==> Clean(PathJoin(cfg.root, req)) in present
                                              && HasPrefix(Clean(PathJoin(cfg.root, req)), cfg.root))
    ensures !cfg.isFile && r.Resolved? ==> r.path == Clean(PathJoin(cfg.root, req))
    ensures !cfg.isFile && r.Resolved? ==> Clean(r.path) == r.path
    ensures !cfg.isFile ==> (r.AccessDenied? <==> !HasPrefix(Clean(PathJoin(cfg.root, req)), cfg.root))
  {
    if cfg.isFile then
      if req != cfg.fileName then Mismatch
      else Resolved(PathJoin(cfg.root, cfg.fileName))
    else
      var clean := Clean(PathJoin(cfg.root, req));
      CleanIdempotent(PathJoin(cfg.root, req));
      if !HasPrefix(clean, cfg.root) then AccessDenied
      else if clean !in present then Missing
      else Resolved(clean)
  }

  /** In single-file mode the one accepted name resolves to the file
      `root/<fileName>` in the root directory, whether or not the file is
      still there. */
  lemma SingleFileResolves(cfg: Config, present: set<string>)
    requires Valid(cfg) && cfg.isFile
    ensures Resolve(cfg, present, cfg.fileName)
            == Resolved(if cfg.root == "/" then "/" + cfg.fileName else cfg.root + "/" + cfg.fileName)
  {
    JoinPlainSegment(cfg.root, cfg.fileName);
  }

  /** In directory mode a request without `..` segments is never refused by
      the prefix check; it resolves exactly when its joined path exists. */
  lemma PlainRequestPassesPrefix(cfg: Config, present: set<string>, req: string)
    requires Valid(cfg) && !cfg.isFile
    requires forall i :: 0 <= i < |Split(req, '/')| ==> Split(req, '/')[i] != ".."
    ensures Resolve(cfg, present, req).Resolved? <==> Clean(PathJoin(cfg.root, req)) in present
  {
    JoinStaysWithin(cfg.root, req);
    WithinHasPrefix(cfg.root, Clean(PathJoin(cfg.root, req)));
  }

  lemma WithinHasPrefix(root: string, p: string)
    requires Within(root, p)
    ensures HasPrefix(p, root)
  {
    if p != root && !HasSuffix(root, "/") {
      assert p[..|root|] == (root + "/")[..|root|];
    }
  }

  /** A segment followed by a non-empty separator-free suffix is still a
      plain segment. */
  lemma ExtendedSegment(n: string, sfx: string)
    requires PlainSegment(n) && sfx != "" && '/' !in sfx
    ensures PlainSegment(n + sfx)
  {
    var sib := n + sfx;
    assert sib[0] == n[0];
    if |n| == 1 {
      assert sib != "..";
    }
    forall i | 0 <= i < |sib| ensures sib[i] != '/' {
      if i < |n| { assert sib[i] == n[i]; } else { assert sib[i] == sfx[i - |n|]; }
    }
  }

  /** The segments of a two-level absolute root. */
  lemma TwoLevelStack(d: string, n: string)
    requires PlainSegment(d) && PlainSegment(n)
    ensures Stack("/" + d + "/" + n) == [d, n]
  {
    var root := "/" + d + "/" + n;
    SplitThree("", d, n);
    assert root == "" + "/" + d + "/" + n;
    assert ["", d, n][1..] == [d, n] && [d, n][1..] == [n] && [n][1..] == [];
    assert Step([], d, true) == [d] && Step([d], n, true) == [d, n];
    assert Fold([], ["", d, n], true) == Fold([], [d, n], true) == Fold([d], [n], true) == [d, n];
  }

  /** Cleaning `/d/n/../s/f` climbs out of `n` into its sibling `s`. */
  lemma SiblingClean(d: string, n: string, sib: string, f: string)
    requires PlainSegment(d) && PlainSegment(n) && PlainSegment(sib) && PlainSegment(f)
    ensures PathJoin("/" + d + "/" + n, ".." + "/" + sib + "/" + f) == "/" + d + "/" + sib + "/" + f
  {
    var root := "/" + d + "/" + n;
    var req := ".." + "/" + sib + "/" + f;
    TwoLevelStack(d, n);
    SplitThree("..", sib, f);
    assert ["..", sib, f][1..] == [sib, f] && [sib, f][1..] == [f] && [f][1..] == [];
    assert Step([d, n], "..", true) == [d];
    assert Step([d], sib, true) == [d, sib] && Step([d, sib], f, true) == [d, sib, f];
    assert Fold([d, n], ["..", sib, f], true) == Fold([d], [sib, f], true) == Fold([d, sib], [f], true);
    assert Fold([d, sib], [f], true) == [d, sib, f];
    CleanJoinStack(root, req);
    assert [d, sib, f][1..] == [sib, f] && [sib, f][1..] == [f];
    assert Join([sib, f], '/') == sib + "/" + f;
    assert Join([d, sib, f], '/') == d + "/" + (sib + "/" + f);
  }

  /** The prefix check as written compares strings, so a sibling directory
      whose name extends the root's passes it: with root `/d/n`, the
      request `../n<sfx>/f` cleans to `/d/n<sfx>/f`, which starts with the
      root's string but lies outside its tree, and resolves when it exists. */
  lemma SiblingPassesPrefix(cfg: Config, present: set<string>, d: string, n: string, sfx: string, f: string)
    requires PlainSegment(d) && PlainSegment(n) && PlainSegment(f)
    requires sfx != "" && '/' !in sfx
    requires !cfg.isFile && cfg.root == "/" + d + "/" + n
    requires "/" + d + "/" + (n + sfx) + "/" + f in present
    ensures var p := "/" + d + "/" + (n + sfx) + "/" + f;
            Resolve(cfg, present, ".." + "/" + (n + sfx) + "/" + f) == Resolved(p) && !Within(cfg.root, p)
  {
    var root := "/" + d + "/" + n;
    var sib := n + sfx;
    var req := ".." + "/" + sib + "/" + f;
    var p := "/" + d + "/" + sib + "/" + f;
    ExtendedSegment(n, sfx);
    SiblingClean(d, n, sib, f);
    CleanIdempotent(root + "/" + req);
    assert p == root + sfx + "/" + f;
    assert HasPrefix(p, root);
    assert root[|root| - 1] == n[|n| - 1];
    assert !HasSuffix(root, "/");
    assert p[|root|] == sfx[0];
    assert !HasPrefix(p, root + "/");
  }

  /** `resolveFilePath` with a prefix check that confines the cleaned path
      to the root's tree: it must be the root itself or lie below `root/`. */
  function ResolveStrict(cfg: Config, present: set<string>, req: string): (r: Resolution)
    ensures !cfg.isFile && r.Resolved? ==> Within(cfg.root, r.path) && r.path in present
    ensures !cfg.isFile && r.Resolved? ==> r.path == Clean(PathJoin(cfg.root, req))
    ensures cfg.isFile ==> r == Resolve(cfg, present, req)
  {
    if cfg.isFile then Resolve(cfg, present, req)
    else
      var clean := Clean(PathJoin(cfg.root, req));
      if !Within(cfg.root, clean) then AccessDenied
      else if clean !in present then Missing
      else Resolved(clean)
  }

  /** The corrected check only refuses more: whatever it resolves, the
      check as written resolves the same way. */
  lemma StrictNarrows(cfg: Config, present: set<string>, req: string)
    ensures ResolveStrict(cfg, present, req).Resolved? ==> Resolve(cfg, present, req) == ResolveStrict(cfg, present, req)
  {
    if !cfg.isFile && Within(cfg.root, Clean(PathJoin(cfg.root, req))) {
      WithinHasPrefix(cfg.root, Clean(PathJoin(cfg.root, req)));
    }
  }

  /** On requests without `..` segments both checks agree, so the
      correction refuses no legitimate archive name. */
  lemma StrictAgreesOnPlainRequests(cfg: Config, present: set<string>, req: string)
    requires Valid(cfg)
    requires forall i :: 0 <= i < |Split(req, '/')| ==> Split(req, '/')[i] != ".."
    ensures ResolveStrict(cfg, present, req) == Resolve(cfg, present, req)
  {
    if !cfg.isFile {
      JoinStaysWithin(cfg.root, req);
      WithinHasPrefix(cfg.root, Clean(PathJoin(cfg.root, req)));
    }
  }

  /** The corrected check refuses the sibling that the check as written
      lets through. */
  lemma StrictRefusesSibling(cfg: Config, present: set<string>, d: string, n: string, sfx: string, f: string)
    requires PlainSegment(d) && PlainSegment(n) && PlainSegment(f)
    requires sfx != "" && '/' !in sfx
    requires !cfg.isFile && cfg.root == "/" + d + "/" + n
    requires "/" + d + "/" + (n + sfx) + "/" + f in present
    ensures ResolveStrict(cfg, present, ".." + "/" + (n + sfx) + "/" + f) == AccessDenied
  {
    SiblingPassesPrefix(cfg, present, d, n, sfx, f);
  }
}

=== FILE: server.dfy ===
/** `ServeHTTP`: the authentication gate, the prefix check, and the
    dispatch to the landing response, the static assets and the map
    handlers. */
module Server {
  import opened Wrappers
  import opened GoStrings
  import opened GoStrconv
  import opened GoFilepath
  import opened Metadata
  import opened Outcomes
  import opened Settings
  import opened Auth
  import opened Sandbox
  import opened Static
  import opened Address
  import opened Store

  /** The parts of a request the handler reads: the URL path and the
      `Authorization`, `Accept` and `Range` headers (`""` when absent). */
  datatype Request = Request(path: string, authorization: string, accept: string, range: string)

  /** The world outside the handler: the paths `os.Stat` does not report
      missing, the names the embedded asset tree opens, the archives on
      disk, and `json.Unmarshal` as a partial function. */
  datatype Env = Env(
    present: set<string>,
    assets: set<string>,
    archives: map<string, Archive>,
    parse: string -> Option<Value>)

  /** The archive at a resolved path. A file that is not an SQLite database
      still opens, lazily, and then every query on it fails. */
  function ArchiveAt(env: Env, path: string): Archive
  {
    if path in env.archives then env.archives[path] else Archive(true, None, None)
  }

  /** The landing text for the mount point in directory mode. */
  function Landing(webPath: string): string
  {
    "Map server running. Access /" + webPath + "map/{filename}"
  }

  /** `serveMap` with its three resolving handlers. Every path that goes
      through `resolveFilePath` turns a refusal into `File not found`; the
      viewer page never resolves anything. Archive names are resolved with
      the corrected sandbox check, which agrees with the check as written
      on every name without `..` segments when the configuration satisfies
      `Settings.Valid`. */
  function ServeMap(cfg: Config, env: Env, rel: string, range: string, accept: string): (r: Outcome)
    ensures var route := ParseMap(cfg.webPath, rel, range, accept);
            && (route.NoRoute? ==> r == NotFound(PageNotFound))
            && (route.ViewerOf? ==> r == Viewer(route.rootPath, route.file))
            && (route.MetadataOf? || route.TileOf? || route.RawOf? ==>
                  (ResolveStrict(cfg, env.present, route.file).Resolved? || r == NotFound("File not found")))
            && (r.RawFile? ==> route.RawOf? && ResolveStrict(cfg, env.present, route.file) == Resolved(r.path))
    ensures var route := ParseMap(cfg.webPath, rel, range, accept);
            (route.MetadataOf? || route.TileOf? || route.RawOf?) && ResolveStrict(cfg, env.present, route.file).Resolved? ==>
              var p := ResolveStrict(cfg, env.present, route.file).path;
              r == (if route.MetadataOf? then ServeMetadata(ArchiveAt(env, p), env.parse)
                    else if route.TileOf? then ServeTile(ArchiveAt(env, p), route.z, route.x, route.y)
                    else RawFile(p))
    ensures !r.Unauthorized? && !r.Redirect? && !r.Info? && !r.Asset?
  {
    match ParseMap(cfg.webPath, rel, range, accept)
    case NoRoute => NotFound(PageNotFound)
    case ViewerOf(rootPath, file) => Viewer(rootPath, file)
    case MetadataOf(file) =>
      (match ResolveStrict(cfg, env.present, file)
       case Resolved(p) => ServeMetadata(ArchiveAt(env, p), env.parse)
       case _ => NotFound("File not found"))
    case TileOf(file, z, x, y) =>
      (match ResolveStrict(cfg, env.present, file)
       case Resolved(p) => ServeTile(ArchiveAt(env, p), z, x, y)
       case _ => NotFound("File not found"))
    case RawOf(file) =>
      (match ResolveStrict(cfg, env.present, file)
       case Resolved(p) => RawFile(p)
       case _ => NotFound("File not found"))
  }

  /** `ServeHTTP` past the gate: the prefix check, the landing response,
      then `web/` and `map/`. */
  function Route(cfg: Config, env: Env, path: string, range: string, accept: string): (r: Outcome)
    ensures !HasPrefix(path, cfg.webPath) ==> r == NotFound(PageNotFound)
    ensures !r.Unauthorized?
    ensures r.Redirect? ==> cfg.isFile && r.location == cfg.webPath + "map/" + cfg.fileName
    ensures r.Info? ==> !cfg.isFile && r.message == Landing(cfg.webPath)
    ensures r.Asset? ==> HasPrefix(path, cfg.webPath + "web/")
    ensures r.Tile? || r.MetadataJson? || r.RawFile? || r.Viewer? || r.Panic? || r.ServerError? ==>
              HasPrefix(path, cfg.webPath + "map/")
  {
    if !HasPrefix(path, cfg.webPath) then NotFound(PageNotFound)
    else
      var rest := TrimPrefix(path, cfg.webPath);
      if rest == "" || rest == "/" then
        if cfg.isFile then Redirect(cfg.webPath + "map/" + cfg.fileName)
        else Info(Landing(cfg.webPath))
      else if HasPrefix(rest, "web/") then
        PrefixThrough(path, cfg.webPath, rest, "web/");
        ServeStatic(env.assets, TrimPrefix(rest, "web/"))
      else if HasPrefix(rest, "map/") then
        PrefixThrough(path, cfg.webPath, rest, "map/");
        ServeMap(cfg, env, TrimPrefix(rest, "map/"), range, accept)
      else NotFound(PageNotFound)
  }

  /** A prefix of what follows a prefix extends it. */
  lemma PrefixThrough(s: string, p: string, rest: string, q: string)
    requires p + rest == s && HasPrefix(rest, q)
    ensures HasPrefix(s, p + q)
  {
    assert s[..|p + q|] == p + rest[..|q|];
  }

  /** `ServeHTTP`: with a secret configured, the gate runs before anything
      else. */
  function Handle(cfg: Config, env: Env, req: Request): (r: Outcome)
    ensures r.Unauthorized? <==> cfg.auth != "" && req.authorization != "Basic " + cfg.auth
    ensures r.Unauthorized? ==> r.challenge == Challenge && r.message == UnauthorizedText
    ensures !r.Unauthorized? ==> r == Route(cfg, env, req.path, req.range, req.accept)
  {
    if cfg.auth != "" && !CheckAuth(cfg.auth, req.authorization) then Unauthorized(Challenge, UnauthorizedText)
    else Route(cfg, env, req.path, req.range, req.accept)
  }

  /** With no secret configured the `Authorization` header plays no part. */
  lemma OpenGateIgnoresHeader(cfg: Config, env: Env, req: Request, header: string)
    requires cfg.auth == ""
    ensures Handle(cfg, env, req) == Handle(cfg, env, req.(authorization := header))
  {
  }

  /** The authentication tests: no header is refused, and `Basic ` followed
      by the configured credential is let through. */
  lemma AuthExamples(cfg: Config, env: Env, path: string)
    requires cfg.auth != ""
    ensures Handle(cfg, env, Request(path, "", "", "")) == Unauthorized(Challenge, UnauthorizedText)
    ensures !Handle(cfg, env, Request(path, "Basic " + cfg.auth, "", "")).Unauthorized?
  {
  }

  /** The mount point itself, with or without a trailing `/`, redirects to
      the one file in single-file mode and answers with the landing text
      otherwise. */
  lemma RootLanding(cfg: Config, env: Env, req: Request)
    requires req.path == cfg.webPath || req.path == cfg.webPath + "/"
    ensures Route(cfg, env, req.path, req.range, req.accept)
            == if cfg.isFile then Redirect(cfg.webPath + "map/" + cfg.fileName) else Info(Landing(cfg.webPath))
  {
    assert HasPrefix(req.path, cfg.webPath);
    assert req.path == cfg.webPath + TrimPrefix(req.path, cfg.webPath);
  }

  /** A request under `map/` reaches the map parser with the rest of its
      path. */
  lemma MapPrefixDispatch(cfg: Config, env: Env, req: Request, rel: string)
    requires req.path == cfg.webPath + "map/" + rel
    ensures Route(cfg, env, req.path, req.range, req.accept) == ServeMap(cfg, env, rel, req.range, req.accept)
  {
    var rest := "map/" + rel;
    assert req.path == cfg.webPath + rest;
    assert HasPrefix(req.path, cfg.webPath);
    assert TrimPrefix(req.path, cfg.webPath) == rest;
    assert rest[0] == 'm';
    assert HasPrefix(rest, "map/");
    assert TrimPrefix(rest, "map/") == rel;
  }

  /** A request under `web/` is an asset lookup. */
  lemma WebPrefixDispatch(cfg: Config, env: Env, req: Request, path: string)
    requires req.path == cfg.webPath + "web/" + path
    ensures Route(cfg, env, req.path, req.range, req.accept) == ServeStatic(env.assets, path)
  {
    var rest := "web/" + path;
    assert req.path == cfg.webPath + rest;
    assert HasPrefix(req.path, cfg.webPath);
    assert TrimPrefix(req.path, cfg.webPath) == rest;
    assert HasPrefix(rest, "web/");
    assert TrimPrefix(rest, "web/") == path;
  }

  /** Any other remainder under the mount point is a plain 404. */
  lemma OtherRemainderNotFound(cfg: Config, env: Env, req: Request, rest: string)
    requires req.path == cfg.webPath + rest
    requires rest != "" && rest != "/" && !HasPrefix(rest, "web/") && !HasPrefix(rest, "map/")
    ensures Route(cfg, env, req.path, req.range, req.accept) == NotFound(PageNotFound)
  {
    assert HasPrefix(req.path, cfg.webPath);
    assert TrimPrefix(req.path, cfg.webPath) == rest;
  }

  /** In directory mode one plain file name below the root resolves exactly
      when the joined path exists, and then to that path. */
  lemma PlainNameResolves(cfg: Config, present: set<string>, file: string)
    requires Valid(cfg) && !cfg.isFile && PlainSegment(file)
    ensures ResolveStrict(cfg, present, file).Resolved? <==> PathJoin(cfg.root, file) in present
    ensures PathJoin(cfg.root, file) in present ==> ResolveStrict(cfg, present, file) == Resolved(PathJoin(cfg.root, file))
  {
    SplitNoSep(file, '/');
    PlainRequestPassesPrefix(cfg, present, file);
    StrictAgreesOnPlainRequests(cfg, present, file);
    CleanIdempotent(cfg.root + "/" + file);
  }

  /** End to end: an authorised tile request for an archive directly under
      the root is answered by the tile handler on that archive, with the
      coordinates as written in the URL. */
  lemma TileRequest(cfg: Config, env: Env, req: Request, file: string, z: int, x: int, y: int)
    requires Valid(cfg) && !cfg.isFile
    requires cfg.auth == "" || req.authorization == "Basic " + cfg.auth
    requires PlainSegment(file) && HasSuffix(file, ".mbtiles")
    requires IsInt64(z) && IsInt64(x) && IsInt64(y)
    requires req.path == cfg.webPath + "map/" + TileUrl(file, z, x, y)
    requires PathJoin(cfg.root, file) in env.present
    ensures Handle(cfg, env, req) == ServeTile(ArchiveAt(env, PathJoin(cfg.root, file)), z, x, y)
  {
    MapPrefixDispatch(cfg, env, req, TileUrl(file, z, x, y));
    TileUrlRoundTrip(cfg.webPath, file, z, x, y, req.range, req.accept);
    PlainNameResolves(cfg, env.present, file);
  }

  /** End to end: an authorised metadata request for an archive directly
      under the root is answered by the metadata handler on that archive. */
  lemma MetadataRequest(cfg: Config, env: Env, req: Request, file: string)
    requires Valid(cfg) && !cfg.isFile
    requires cfg.auth == "" || req.authorization == "Basic " + cfg.auth
    requires PlainSegment(file)
    requires req.path == cfg.webPath + "map/" + file + MetadataSuffix
    requires PathJoin(cfg.root, file) in env.present
    ensures Handle(cfg, env, req) == ServeMetadata(ArchiveAt(env, PathJoin(cfg.root, file)), env.parse)
  {
    assert req.path == cfg.webPath + "map/" + (file + MetadataSuffix);
    MapPrefixDispatch(cfg, env, req, file + MetadataSuffix);
    MetadataRoundTrip(cfg.webPath, file, req.range, req.accept);
    PlainNameResolves(cfg, env.present, file);
  }

  /** The viewer page for an archive is produced whether or not the archive
      exists, and is the same for every state of the disk. */
  lemma ViewerWithoutResolution(cfg: Config, env: Env, req: Request, rel: string)
    requires cfg.auth == "" || req.authorization == "Basic " + cfg.auth
    requires HasSuffix(rel, ".mbtiles") || (HasSuffix(rel, ".pmtiles") && req.range == "")
    requires Contains(req.accept, "text/html")
    requires req.path == cfg.webPath + "map/" + rel
    ensures Handle(cfg, env, req) == Viewer(cfg.webPath + "web", cfg.webPath + "map/" + rel)
  {
    MapPrefixDispatch(cfg, env, req, rel);
    WholeArchive(cfg.webPath, rel, req.range, req.accept);
  }

  /** In single-file mode any other archive name is a 404, wherever it
      would have led. */
  lemma SingleFileRefusesOthers(cfg: Config, env: Env, req: Request, rel: string)
    requires cfg.isFile
    requires var route := ParseMap(cfg.webPath, rel, req.range, req.accept);
             (route.MetadataOf? || route.TileOf? || route.RawOf?) && route.file != cfg.fileName
    ensures ServeMap(cfg, env, rel, req.range, req.accept) == NotFound("File not found")
  {
  }

  /** In single-file mode the configured name is served, on every route
      that resolves, from the file `root/<fileName>` in the root directory,
      whether or not it still exists. */
  lemma SingleFileServesArchive(cfg: Config, env: Env, rel: string, range: string, accept: string)
    requires cfg.isFile
    requires var route := ParseMap(cfg.webPath, rel, range, accept);
             (route.MetadataOf? || route.TileOf? || route.RawOf?) && route.file == cfg.fileName
    ensures var route := ParseMap(cfg.webPath, rel, range, accept);
            var p := PathJoin(cfg.root, cfg.fileName);
            ServeMap(cfg, env, rel, range, accept)
              == if route.MetadataOf? then ServeMetadata(ArchiveAt(env, p), env.parse)
                 else if route.TileOf? then ServeTile(ArchiveAt(env, p), route.z, route.x, route.y)
                 else RawFile(p)
  {
  }

  /** A remainder that ends in a letter and names no archive is a plain 404
      before any path is resolved. This covers the traversal probe
      `../../etc/passwd`. */
  lemma NonArchiveNotFound(cfg: Config, env: Env, req: Request, rel: string)
    requires |rel| >= 1 && !IsDigit(rel[|rel| - 1])
    requires !HasSuffix(rel, MetadataSuffix) && !HasSuffix(rel, ".mbtiles") && !HasSuffix(rel, ".pmtiles")
    ensures ServeMap(cfg, env, rel, req.range, req.accept) == NotFound(PageNotFound)
  {
    NonArchiveNoRoute(cfg.webPath, rel, req.range, req.accept);
  }

  /** The traversal probe of the tests is refused. */
  lemma TraversalProbeRefused(cfg: Config, env: Env, req: Request)
    requires cfg.auth == "" || req.authorization == "Basic " + cfg.auth
    requires req.path == cfg.webPath + "map/" + "../../etc/passwd"
    ensures Handle(cfg, env, req) == NotFound(PageNotFound)
  {
    var rel := "../../etc/passwd";
    MapPrefixDispatch(cfg, env, req, rel);
    SuffixLastChar(rel, MetadataSuffix);
    SuffixLastChar(rel, ".mbtiles");
    SuffixLastChar(rel, ".pmtiles");
    NonArchiveNotFound(cfg, env, req, rel);
  }

  /** The sibling request that the sandbox check as written lets through
      (see `Sandbox.SiblingPassesPrefix`) is refused: with root `/d/n`, the
      metadata request `map/../n<sfx>/<f>/metadata.json` resolves, under the
      check as written, to the sibling archive `/d/n<sfx>/<f>`, and the
      corrected handler answers `File not found` even when that archive
      exists. */
  lemma SiblingArchiveRefused(cfg: Config, env: Env, req: Request, d: string, n: string, sfx: string, f: string)
    requires PlainSegment(d) && PlainSegment(n) && PlainSegment(f)
    requires sfx != "" && '/' !in sfx
    requires !cfg.isFile && cfg.root == "/" + d + "/" + n
    requires cfg.auth == "" || req.authorization == "Basic " + cfg.auth
    requires req.path == cfg.webPath + "map/" + ((".." + "/" + (n + sfx) + "/" + f) + MetadataSuffix)
    requires "/" + d + "/" + (n + sfx) + "/" + f in env.present
    ensures var file := ".." + "/" + (n + sfx) + "/" + f;
            ParseMap(cfg.webPath, file + MetadataSuffix, req.range, req.accept) == MetadataOf(file)
            && Resolve(cfg, env.present, file) == Resolved("/" + d + "/" + (n + sfx) + "/" + f)
    ensures Handle(cfg, env, req) == NotFound("File not found")
  {
    var file := ".." + "/" + (n + sfx) + "/" + f;
    MapPrefixDispatch(cfg, env, req, file + MetadataSuffix);
    MetadataRoundTrip(cfg.webPath, file, req.range, req.accept);
    SiblingPassesPrefix(cfg, env.present, d, n, sfx, f);
    StrictRefusesSibling(cfg, env.present, d, n, sfx, f);
  }
}

=== FILE: settings.dfy ===
/** The handler's configuration, fixed when the handler is built. */
module Settings {
  import opened GoFilepath

  /** The `Maps` handler's fields (the parsed template aside): the mount
      prefix, the root directory, the shared secret (empty when the gate is
      off), and in single-file mode the one file's name. */
  datatype Config = Config(webPath: string, root: string, auth: string, isFile: bool, fileName: string)

  /** What the constructor establishes: the root is absolute and clean
      (`filepath.Abs`, or `filepath.Dir` of an absolute path), and in
      single-file mode the name is one path element (`filepath.Base` of a
      file). */
  ghost predicate Valid(cfg: Config)
  {
    && Rooted(cfg.root)
    && Clean(cfg.root) == cfg.root
    && (cfg.isFile ==> PlainSegment(cfg.fileName))
  }
}

=== FILE: static.dfy ===
/** `serveStatic`: the viewer's own assets, embedded under `assets/`, with
    a `Content-Type` chosen from the file name's extension. */
module Static {
  import opened GoStrings
  import opened GoFilepath
  import opened Outcomes

  const OctetStream: string := "application/octet-stream"

  /** The extensions the handler knows, with the type each one gets. */
  const KnownTypes: map<string, string> := map[
    ".css" := "text/css",
    ".js" := "application/javascript",
    ".json" := "application/json",
    ".png" := "image/png",
    ".jpg" := "image/jpeg",
    ".jpeg" := "image/jpeg"
  ]

  /** The `switch ext` of the handler: an exact, case-sensitive match on the
      extension, with `application/octet-stream` for everything else. */
  function Mime(ext: string): (r: string)
    ensures ext in KnownTypes ==> r == KnownTypes[ext]
    ensures ext !in KnownTypes ==> r == OctetStream
  {
    if ext == ".css" then "text/css"
    else if ext == ".js" then "application/javascript"
    else if ext == ".json" then "application/json"
    else if ext == ".png" then "image/png"
    else if ext == ".jpg" || ext == ".jpeg" then "image/jpeg"
    else OctetStream
  }

  /** The type sent for an asset at `path`. */
  function ContentType(path: string): (r: string)
    ensures r == OctetStream || r in KnownTypes.Values
    ensures r != OctetStream ==> Ext(path) in KnownTypes && r == KnownTypes[Ext(path)]
  {
    Mime(Ext(path))
  }

  /** A file name ending in a known extension gets that extension's type,
      whatever comes before it (`app.min.js` is JavaScript). */
  lemma ContentTypeBySuffix(path: string, ext: string)
    requires ext in KnownTypes && HasSuffix(path, ext)
    ensures ContentType(path) == KnownTypes[ext]
  {
    assert ext[0] == '.';
    assert forall i :: 1 <= i < |ext| ==> ext[i] != '.' && ext[i] != '/';
    ExtOfSuffix(path, ext);
  }

  /** Conversely, a specific type is sent only when the final path element
      ends in the matching extension. */
  lemma ContentTypeKnownOnlyBySuffix(path: string)
    requires ContentType(path) != OctetStream
    ensures Ext(path) in KnownTypes && HasSuffix(path, Ext(path))
    ensures ContentType(path) == KnownTypes[Ext(path)]
  {
    assert Ext(path) != "";
  }

  /** The match is case-sensitive: an upper-case extension falls back to
      the generic type. */
  lemma ContentTypeExamples()
    ensures ContentType("logo.PNG") == OctetStream
    ensures ContentType("app.min.js") == "application/javascript"
  {
    ExtOfSuffix("logo.PNG", ".PNG");
    ContentTypeBySuffix("app.min.js", ".js");
  }

  /** `serveStatic`: an asset that the embedded tree opens is copied out
      with the type of its extension; any other name is a plain 404. The
      `assets` set holds the names `assetsFS.Open` accepts. */
  function ServeStatic(assets: set<string>, path: string): (r: Outcome)
    ensures r.Asset? <==> "assets/" + path in assets
    ensures r.Asset? ==> r.fsPath == "assets/" + path && r.contentType == ContentType(path)
    ensures !r.Asset? ==> r == NotFound(PageNotFound)
  {
    var fsPath := "assets/" + path;
    if fsPath !in assets then NotFound(PageNotFound)
    else Asset(fsPath, ContentType(path))
  }
}

=== FILE: store.dfy ===
/** The two MBTiles handlers once the archive path is resolved:
    `handleMBTiles` and `handleMetadata`, with the SQLite database given as
    an abstract archive value. */
module Store {
  import opened Wrappers
  import opened Tiles
  import opened Metadata
  import opened Outcomes

  /** What the handlers can observe of an archive: whether `sql.Open`
      succeeds, and the rows of each table, or `None` when the query on it
      fails. */
  datatype Archive = Archive(opens: bool, tiles: Option<seq<TileRow>>, metadata: Option<seq<MetaRow>>)

  /** `handleMBTiles` after the path is resolved, for the coordinates the
      parser read. A negative zoom makes `1 << z` panic. A failed query
      other than "no rows" is not reported: the headers are still set and
      an empty body is written. */
  function ServeTile(a: Archive, z: int, x: int, y: int): (r: Outcome)
    ensures r.ServerError? <==> !a.opens
    ensures r.ServerError? ==> r.message == "Database error"
    ensures r.Panic? <==> a.opens && z < 0
    ensures r.NotFound? ==> r.message == "Tile not found" && a.tiles.Some?
                            && forall i :: 0 <= i < |a.tiles.value| ==> !Matches(a.tiles.value[i], z, x, TmsRow(z, y))
    ensures r.Tile? ==> r.headers == TileHeaders(r.body)
    ensures r.Tile? && a.tiles.Some? ==>
              exists i :: 0 <= i < |a.tiles.value| && Matches(a.tiles.value[i], z, x, TmsRow(z, y))
                          && a.tiles.value[i].data == r.body
    ensures a.opens && z >= 0 && a.tiles.None? ==> r == Tile(TileHeaders([]), [])
    ensures r.Tile? || r.NotFound? || r.ServerError? || r.Panic?
  {
    if !a.opens then ServerError("Database error")
    else if z < 0 then Panic
    else match a.tiles
      case None => Tile(TileHeaders([]), [])
      case Some(rows) =>
        match Lookup(rows, z, x, TmsRow(z, y))
        case None => NotFound("Tile not found")
        case Some(data) => Tile(TileHeaders(data), data)
  }

  /** A tile stored at `(z, column, row)` is served, byte for byte with its
      headers, for the XYZ row `2^z - 1 - row`, as long as no earlier row
      sits at the same address. */
  lemma StoredTileServed(a: Archive, i: nat)
    requires a.opens && a.tiles.Some? && i < |a.tiles.value|
    requires var t := a.tiles.value[i]; 0 <= t.zoom <= 62 && 0 <= t.row < Pow2(t.zoom)
    requires var t := a.tiles.value[i];
             forall j :: 0 <= j < i ==> !Matches(a.tiles.value[j], t.zoom, t.column, t.row)
    ensures var t := a.tiles.value[i];
            ServeTile(a, t.zoom, t.column, Pow2(t.zoom) - 1 - t.row) == Tile(TileHeaders(t.data), t.data)
  {
    var t := a.tiles.value[i];
    var y := Pow2(t.zoom) - 1 - t.row;
    TmsRowInGrid(t.zoom, y);
    LookupFirst(a.tiles.value, i);
  }

  /** A readable table with no row at the converted address gives 404, never
      a server error or an empty 200. */
  lemma MissingTileNotFound(a: Archive, z: nat, x: int, y: int)
    requires a.opens && a.tiles.Some?
    requires forall i :: 0 <= i < |a.tiles.value| ==> !Matches(a.tiles.value[i], z, x, TmsRow(z, y))
    ensures ServeTile(a, z, x, y) == NotFound("Tile not found")
  {
  }

  /** The tests' archive: one PNG tile stored at zoom 1, column 0, TMS row 1
      is served for XYZ `1/0/0`, and `1/0/99` is a 404. */
  lemma SingleTileExample()
    ensures var a := Archive(true, Some([TileRow(1, 0, 1, [0x89, 0x50, 0x4e, 0x47])]), None);
            && ServeTile(a, 1, 0, 0) == Tile(TileHeaders([0x89, 0x50, 0x4e, 0x47]), [0x89, 0x50, 0x4e, 0x47])
            && ServeTile(a, 1, 0, 99) == NotFound("Tile not found")
  {
    var a := Archive(true, Some([TileRow(1, 0, 1, [0x89, 0x50, 0x4e, 0x47])]), None);
    StoredTileServed(a, 0);
    assert TmsRow(1, 99) == -98;
  }

  /** `handleMetadata` after the path is resolved: the normalised object,
      or the error for the step that failed. `parse` stands for
      `json.Unmarshal`. */
  function ServeMetadata(a: Archive, parse: string -> Option<Value>): (r: Outcome)
    ensures r.ServerError? <==> !a.opens || a.metadata.None?
    ensures r.ServerError? ==> r.message == (if !a.opens then "Database error" else "Metadata read error")
    ensures !r.ServerError? ==> r.MetadataJson?
    ensures r.MetadataJson? ==> r.meta.Keys == set i | 0 <= i < |a.metadata.value| :: a.metadata.value[i].name
    ensures r.MetadataJson? ==> r.meta == MetadataObject(parse, a.metadata.value)
  {
    if !a.opens then ServerError("Database error")
    else match a.metadata
      case None => ServerError("Metadata read error")
      case Some(rows) =>
        MetadataObjectSpec(parse, rows);
        MetadataJson(MetadataObject(parse, rows))
  }

  /** The tests' metadata table: the `name` row's text, which is not JSON,
      is served as that string. */
  lemma MetadataNameExample(parse: string -> Option<Value>)
    requires parse("Test Map") == None
    ensures var rows := [MetaRow("name", "Test Map"), MetaRow("format", "png")];
            var r := ServeMetadata(Archive(true, None, Some(rows)), parse);
            r.MetadataJson? && "name" in r.meta && r.meta["name"] == Str("Test Map")
  {
    var rows := [MetaRow("name", "Test Map"), MetaRow("format", "png")];
    MetadataObjectSpec(parse, rows);
    assert IsLast(rows, 0);
  }
}

=== FILE: strconv.dfy ===
/** Go's `strconv.Atoi` on a 64-bit platform, and `strconv.Itoa` as its
    partner. The tile router uses Atoi to decide whether a path segment is a
    coordinate. */
module GoStrconv {
  import opened Wrappers

  const MinInt64: int := -0x8000_0000_0000_0000
  const MaxInt64: int := 0x7fff_ffff_ffff_ffff

  /** The range of Go's 64-bit `int`. */
  predicate IsInt64(n: int)
  {
    MinInt64 <= n <= MaxInt64
  }

  predicate IsDigit(c: char)
  {
    '0' <= c <= '9'
  }

  predicate AllDigits(s: string)
  {
    forall i :: 0 <= i < |s| ==> IsDigit(s[i])
  }

  function DigitValue(c: char): nat
    requires IsDigit(c)
  {
    c as int - '0' as int
  }

  function DigitChar(d: nat): (c: char)
    requires d < 10
    ensures IsDigit(c) && DigitValue(c) == d
  {
    (d + '0' as int) as char
  }

  /** The value of a run of decimal digits, most significant first. */
  function DigitsValue(s: string): nat
    requires AllDigits(s)
    decreases |s|
  {
    if |s| == 0 then 0
    else DigitsValue(s[..|s| - 1]) * 10 + DigitValue(s[|s| - 1])
  }

  function Pow10(n: nat): (r: nat)
    ensures r >= 1
  {
    if n == 0 then 1 else 10 * Pow10(n - 1)
  }

  /** `s` minus a leading `+` or `-`. */
  function Unsigned(s: string): string
  {
    if |s| > 0 && (s[0] == '-' || s[0] == '+') then s[1..] else s
  }

  /** Reference reading of what Atoi accepts: an optional sign followed by
      one or more decimal digits. */
  predicate IsDecimal(s: string)
  {
    |Unsigned(s)| >= 1 && AllDigits(Unsigned(s))
  }

  /** The signed value of a decimal literal, unbounded. */
  function DecimalValue(s: string): int
    requires IsDecimal(s)
  {
    var v: int := DigitsValue(Unsigned(s));
    if s[0] == '-' then -v else v
  }

  /** `strconv.Atoi`, following Go's two paths: a fast path for inputs of
      1 to 18 bytes, which cannot overflow, and `ParseInt(s, 10, 0)` for the
      rest, which reports a range error outside the 64-bit range. `None`
      stands for a returned error. */
  function Atoi(s: string): (r: Option<int>)
    ensures r.Some? ==> IsInt64(r.value)
  {
    var body := Unsigned(s);
    if 0 < |s| < 19 then
      if |body| < 1 || !AllDigits(body) then None
      else
        DigitsBound(body);
        Pow10Mono(|body|, 18);
        Pow10Of18();
        var v: int := DigitsValue(body);
        Some(if s[0] == '-' then -v else v)
    else if |s| == 0 || |body| < 1 || !AllDigits(body) then None
    else
      var un: int := DigitsValue(body);
      if s[0] == '-' then (if un > -MinInt64 then None else Some(-un))
      else if un > MaxInt64 then None
      else Some(un)
  }

  lemma {:induction false} DigitsBound(s: string)
    requires AllDigits(s)
    ensures DigitsValue(s) < Pow10(|s|)
    decreases |s|
  {
    if |s| > 0 {
      DigitsBound(s[..|s| - 1]);
    }
  }

  lemma Pow10Of18()
    ensures Pow10(18) == 1_000_000_000_000_000_000
  {
    assert Pow10(3) == 1000;
    assert Pow10(6) == 1000000;
    assert Pow10(9) == 1000000000;
    assert Pow10(12) == 1000000000000;
    assert Pow10(15) == 1000000000000000;
    assert Pow10(18) == 1000000000000000000;
  }

  lemma {:induction false} Pow10Mono(m: nat, n: nat)
    requires m <= n
    ensures Pow10(m) <= Pow10(n)
    decreases n
  {
    if m < n {
      Pow10Mono(m, n - 1);
    }
  }

  /** Both of Go's paths agree with the reference reading: Atoi succeeds
      exactly on an optionally signed run of one or more digits whose value
      fits in 64 bits, and then returns that value. */
  lemma AtoiIff(s: string)
    ensures Atoi(s).Some? <==> IsDecimal(s) && IsInt64(DecimalValue(s))
    ensures Atoi(s).Some? ==> Atoi(s).value == DecimalValue(s)
  {
    if 0 < |s| < 19 && IsDecimal(s) {
      var body := Unsigned(s);
      DigitsBound(body);
      Pow10Mono(|body|, 18);
      Pow10Of18();
    }
  }

  /** Decimal digits of a natural number, most significant first, with no
      leading zero. */
  function Digits(n: nat): (s: string)
    ensures |s| >= 1 && AllDigits(s)
    ensures DigitsValue(s) == n
    decreases n
  {
    if n < 10 then [DigitChar(n)]
    else
      var s := Digits(n / 10) + [DigitChar(n % 10)];
      assert s[..|s| - 1] == Digits(n / 10);
      s
  }

  /** `strconv.Itoa`. */
  function Itoa(n: int): string
  {
    if n < 0 then "-" + Digits(-n) else Digits(n)
  }

  /** Formatting a 64-bit integer and parsing it back gives the integer. */
  lemma AtoiItoa(n: int)
    requires IsInt64(n)
    ensures Atoi(Itoa(n)) == Some(n)
  {
    var s := Itoa(n);
    if n < 0 {
      assert Unsigned(s) == Digits(-n);
    } else {
      assert Unsigned(s) == Digits(n);
    }
    AtoiIff(s);
  }
}

=== FILE: strings.dfy ===
/** The few operations of Go's `strings` package that the request pipeline
    relies on, over `string` = `seq<char>`. */
module GoStrings {

  /** `strings.HasPrefix`. */
  predicate HasPrefix(s: string, prefix: string)
  {
    |prefix| <= |s| && s[..|prefix|] == prefix
  }

  /** `strings.HasSuffix`. */
  predicate HasSuffix(s: string, suffix: string)
  {
    |suffix| <= |s| && s[|s| - |suffix|..] == suffix
  }

  /** `strings.TrimPrefix`: drops `prefix` once when present. */
  function TrimPrefix(s: string, prefix: string): (r: string)
    ensures HasPrefix(s, prefix) ==> prefix + r == s
    ensures !HasPrefix(s, prefix) ==> r == s
  {
    if HasPrefix(s, prefix) then
      assert s == s[..|prefix|] + s[|prefix|..];
      s[|prefix|..]
    else s
  }

  /** `strings.TrimSuffix`: drops `suffix` once when present. */
  function TrimSuffix(s: string, suffix: string): (r: string)
    ensures HasSuffix(s, suffix) ==> r + suffix == s
    ensures !HasSuffix(s, suffix) ==> r == s
  {
    if HasSuffix(s, suffix) then
      assert s == s[..|s| - |suffix|] + s[|s| - |suffix|..];
      s[..|s| - |suffix|]
    else s
  }

  /** `t` occurs in `s` starting at index `i`. */
  ghost predicate OccursAt(s: string, t: string, i: int)
  {
    0 <= i && i + |t| <= |s| && s[i..i + |t|] == t
  }

  /** `strings.Contains`, written as a left-to-right scan. */
  predicate Contains(s: string, t: string)
    decreases |s|
  {
    HasPrefix(s, t) || (|s| > 0 && Contains(s[1..], t))
  }

  /** The scan finds `t` exactly when `t` occurs somewhere in `s`. */
  lemma {:induction false} ContainsIff(s: string, t: string)
    ensures Contains(s, t) <==> exists i :: OccursAt(s, t, i)
    decreases |s|
  {
    if HasPrefix(s, t) {
      assert OccursAt(s, t, 0);
    } else if |s| == 0 {
      assert |t| > 0;
    } else {
      ContainsIff(s[1..], t);
      if Contains(s[1..], t) {
        var i :| OccursAt(s[1..], t, i);
        assert s[1..][i..i + |t|] == s[i + 1..i + 1 + |t|];
        assert OccursAt(s, t, i + 1);
      } else {
        forall i | 0 <= i && i + |t| <= |s| ensures !OccursAt(s, t, i) {
          if i == 0 {
            assert s[0..|t|] == s[..|t|];
          } else {
            assert s[1..][i - 1..i - 1 + |t|] == s[i..i + |t|];
            assert !OccursAt(s[1..], t, i - 1);
          }
        }
      }
    }
  }

  /** `strings.Split(s, sep)` for a one-character separator: the pieces
      between separators, always at least one (`Split("") == [""]`). */
  function Split(s: string, sep: char): (parts: seq<string>)
    ensures |parts| >= 1
    ensures forall i :: 0 <= i < |parts| ==> sep !in parts[i]
    decreases |s|
  {
    if |s| == 0 then [""]
    else
      var rest := Split(s[1..], sep);
      if s[0] == sep then [""] + rest
      else [[s[0]] + rest[0]] + rest[1..]
  }

  /** `strings.Join(parts, sep)` for a one-character separator. */
  function Join(parts: seq<string>, sep: char): string
    decreases |parts|
  {
    if |parts| == 0 then ""
    else if |parts| == 1 then parts[0]
    else parts[0] + [sep] + Join(parts[1..], sep)
  }

  /** Prepending a character to the first piece prepends it to the join. */
  lemma JoinConsFirst(c: char, parts: seq<string>, sep: char)
    requires |parts| >= 1
    ensures Join([[c] + parts[0]] + parts[1..], sep) == [c] + Join(parts, sep)
  {
    var q := [[c] + parts[0]] + parts[1..];
    assert q[1..] == parts[1..];
  }

  /** Joining the pieces of a split gives the original string back. */
  lemma {:induction false} JoinSplit(s: string, sep: char)
    ensures Join(Split(s, sep), sep) == s
    decreases |s|
  {
    if |s| > 0 {
      var rest := Split(s[1..], sep);
      JoinSplit(s[1..], sep);
      if s[0] == sep {
        assert ([""] + rest)[1..] == rest;
        assert s == [sep] + s[1..];
      } else {
        JoinConsFirst(s[0], rest, sep);
        assert s == [s[0]] + s[1..];
      }
    }
  }

  /** Splitting at a separator placed between `a` and `b` splits `a` and
      `b` independently. */
  lemma {:induction false} SplitConcat(a: string, b: string, sep: char)
    ensures Split(a + [sep] + b, sep) == Split(a, sep) + Split(b, sep)
    decreases |a|
  {
    var s := a + [sep] + b;
    if |a| == 0 {
      assert s[1..] == b;
    } else {
      assert s[1..] == a[1..] + [sep] + b;
      SplitConcat(a[1..], b, sep);
    }
  }

  /** A string without the separator is a single piece. */
  lemma {:induction false} SplitNoSep(a: string, sep: char)
    requires sep !in a
    ensures Split(a, sep) == [a]
    decreases |a|
  {
    if |a| > 0 {
      assert sep !in a[1..] by {
        forall i | 0 <= i < |a[1..]| ensures a[1..][i] != sep {
          assert a[1..][i] == a[i + 1];
        }
      }
      SplitNoSep(a[1..], sep);
      assert [a[0]] + a[1..] == a;
    }
  }

  /** Splitting a join of separator-free pieces gives the pieces back. */
  lemma {:induction false} SplitJoin(parts: seq<string>, sep: char)
    requires |parts| >= 1
    requires forall i :: 0 <= i < |parts| ==> sep !in parts[i]
    ensures Split(Join(parts, sep), sep) == parts
    decreases |parts|
  {
    SplitNoSep(parts[0], sep);
    if |parts| > 1 {
      SplitJoin(parts[1..], sep);
      SplitConcat(parts[0], Join(parts[1..], sep), sep);
      assert [parts[0]] + parts[1..] == parts;
    }
  }

  /** Joining two non-empty runs of pieces puts one separator between them. */
  lemma {:induction false} JoinAppend(p: seq<string>, q: seq<string>, sep: char)
    requires |p| >= 1 && |q| >= 1
    ensures Join(p + q, sep) == Join(p, sep) + [sep] + Join(q, sep)
    decreases |p|
  {
    if |p| == 1 {
      assert (p + q)[1..] == q;
    } else {
      assert (p + q)[1..] == p[1..] + q;
      JoinAppend(p[1..], q, sep);
    }
  }

  /** Three separator-free pieces joined by the separator split back into
      the same three pieces. */
  lemma SplitThree(a: string, b: string, c: string)
    requires '/' !in a && '/' !in b && '/' !in c
    ensures Split(a + "/" + b + "/" + c, '/') == [a, b, c]
  {
    var parts := [a, b, c];
    assert Join(parts[2..], '/') == c;
    assert Join(parts[1..], '/') == b + "/" + c;
    assert Join(parts, '/') == a + "/" + b + "/" + c;
    SplitJoin(parts, '/');
  }
}

=== FILE: tiles.dfy ===
/** The tile side of the MBTiles archive: the XYZ-to-TMS row conversion in
    Go's 64-bit `int` arithmetic, the single-row lookup in the `tiles`
    table, and the headers a served tile carries. */
module Tiles {
  import opened Wrappers
  import opened GoStrconv

  newtype byte = b: int | 0 <= b < 256

  const TwoTo64: int := 0x1_0000_0000_0000_0000

  /** Two's-complement wrap-around of Go's 64-bit `int`. */
  function Wrap64(n: int): (r: int)
    ensures IsInt64(r)
    ensures IsInt64(n) ==> r == n
  {
    (n - MinInt64) % TwoTo64 + MinInt64
  }

  function Pow2(n: nat): (r: nat)
    ensures r >= 1
  {
    if n == 0 then 1 else 2 * Pow2(n - 1)
  }

  /** Go's `1 << z` on `int` for a non-negative count: bit 63 is the sign
      bit, and every bit is shifted out from 64 on. A negative count panics
      at run time, which the caller models. */
  function Shl1(z: nat): int
  {
    if z >= 64 then 0 else Wrap64(Pow2(z))
  }

  /** `tmsY := (1 << z) - 1 - y`, each operation wrapping as Go's `int`
      does: the TMS (south-up) row of XYZ (north-up) row `y` at zoom `z`.
      Up to zoom 62 the shift cannot overflow, so only the subtraction of
      `y` can wrap. */
  function TmsRow(z: nat, y: int): (r: int)
    ensures IsInt64(r)
    ensures z <= 62 ==> r == Wrap64(Pow2(z) - 1 - y)
  {
    if z <= 62 then
      Pow2Mono(z, 62);
      Pow2Of62();
      Wrap64(Wrap64(Shl1(z) - 1) - y)
    else Wrap64(Wrap64(Shl1(z) - 1) - y)
  }

  lemma {:induction false} Pow2Mono(m: nat, n: nat)
    requires m <= n
    ensures Pow2(m) <= Pow2(n)
    decreases n
  {
    if m < n {
      Pow2Mono(m, n - 1);
    }
  }

  lemma Pow2Of62()
    ensures Pow2(62) == 0x4000_0000_0000_0000
  {
    assert Pow2(4) == 16;
    assert Pow2(8) == 256;
    assert Pow2(12) == 4096;
    assert Pow2(16) == 65536;
    assert Pow2(20) == 1048576;
    assert Pow2(24) == 16777216;
    assert Pow2(28) == 268435456;
    assert Pow2(32) == 4294967296;
    assert Pow2(36) == 68719476736;
    assert Pow2(40) == 1099511627776;
    assert Pow2(44) == 17592186044416;
    assert Pow2(48) == 281474976710656;
    assert Pow2(52) == 4503599627370496;
    assert Pow2(56) == 72057594037927936;
    assert Pow2(60) == 1152921504606846976;
    assert Pow2(62) == 4611686018427387904;
  }

  /** For zoom levels below 63 and rows inside the grid no wrap-around
      happens: the TMS row is `2^z - 1 - y` and stays inside the grid. */
  lemma TmsRowInGrid(z: nat, y: int)
    requires z <= 62 && 0 <= y < Pow2(z)
    ensures TmsRow(z, y) == Pow2(z) - 1 - y
    ensures 0 <= TmsRow(z, y) < Pow2(z)
  {
    Pow2Mono(z, 62);
    Pow2Of62();
  }

  /** Two 64-bit values that differ by a multiple of 2^64 are equal. */
  lemma Int64Congruent(a: int, b: int, q: int)
    requires IsInt64(a) && IsInt64(b) && a - b == q * TwoTo64
    ensures a == b
  {
  }

  /** `Wrap64(n)` differs from `n` by a multiple of 2^64. */
  lemma WrapQuotient(n: int) returns (q: int)
    ensures Wrap64(n) == n + q * TwoTo64
  {
    q := -((n - MinInt64) / TwoTo64);
  }

  /** The conversion is its own inverse on every 64-bit row, at every zoom,
      wrap-around included: re-deriving the XYZ row from a stored TMS row
      uses the same formula. */
  lemma TmsRowInvolution(z: nat, y: int)
    requires IsInt64(y)
    ensures TmsRow(z, TmsRow(z, y)) == y
  {
    var k := Wrap64(Shl1(z) - 1);
    var w := TmsRow(z, y);
    var q1 := WrapQuotient(k - y);
    var q2 := WrapQuotient(k - w);
    assert TmsRow(z, w) - y == (q2 - q1) * TwoTo64;
    Int64Congruent(TmsRow(z, w), y, q2 - q1);
  }

  /** One row of the `tiles` table: TMS-addressed, with an opaque blob. */
  datatype TileRow = TileRow(zoom: int, column: int, row: int, data: seq<byte>)

  predicate Matches(t: TileRow, z: int, x: int, row: int)
  {
    t.zoom == z && t.column == x && t.row == row
  }

  /** `SELECT tile_data FROM tiles WHERE zoom_level=? AND tile_column=? AND
      tile_row=?` read through `QueryRow`: the first matching row's blob,
      or `None` for `sql.ErrNoRows`. */
  function Lookup(rows: seq<TileRow>, z: int, x: int, row: int): (r: Option<seq<byte>>)
    ensures r.None? <==> forall i :: 0 <= i < |rows| ==> !Matches(rows[i], z, x, row)
    ensures r.Some? ==> exists i :: 0 <= i < |rows| && Matches(rows[i], z, x, row)
                                   && rows[i].data == r.value
                                   && forall j :: 0 <= j < i ==> !Matches(rows[j], z, x, row)
    decreases |rows|
  {
    if |rows| == 0 then None
    else if Matches(rows[0], z, x, row) then Some(rows[0].data)
    else
      var r := Lookup(rows[1..], z, x, row);
      assert r.Some? ==> exists i :: 0 <= i < |rows| && Matches(rows[i], z, x, row)
                                   && rows[i].data == r.value
                                   && forall j :: 0 <= j < i ==> !Matches(rows[j], z, x, row) by {
        if r.Some? {
          var i :| 0 <= i < |rows[1..]| && Matches(rows[1..][i], z, x, row)
                   && rows[1..][i].data == r.value
                   && forall j :: 0 <= j < i ==> !Matches(rows[1..][j], z, x, row);
          assert forall j :: 0 <= j < i + 1 ==> !Matches(rows[j], z, x, row) by {
            forall j | 0 <= j < i + 1 ensures !Matches(rows[j], z, x, row) {
              if j > 0 {
                assert rows[j] == rows[1..][j - 1];
              }
            }
          }
          assert Matches(rows[i + 1], z, x, row);
        }
      }
      assert r.None? ==> forall i :: 0 <= i < |rows| ==> !Matches(rows[i], z, x, row) by {
        if r.None? {
          forall i | 0 <= i < |rows| ensures !Matches(rows[i], z, x, row) {
            if i > 0 {
              assert rows[i] == rows[1..][i - 1];
            }
          }
        }
      }
      r
  }

  /** The first row stored at an address is the one a lookup returns. */
  lemma LookupFirst(rows: seq<TileRow>, i: nat)
    requires i < |rows|
    requires forall j :: 0 <= j < i ==> !Matches(rows[j], rows[i].zoom, rows[i].column, rows[i].row)
    ensures Lookup(rows, rows[i].zoom, rows[i].column, rows[i].row) == Some(rows[i].data)
  {
    var t := rows[i];
    var r := Lookup(rows, t.zoom, t.column, t.row);
    assert Matches(t, t.zoom, t.column, t.row);
    var k :| 0 <= k < |rows| && Matches(rows[k], t.zoom, t.column, t.row)
             && rows[k].data == r.value
             && forall j :: 0 <= j < k ==> !Matches(rows[j], t.zoom, t.column, t.row);
    assert !(k < i) && !(i < k);
  }

  /** The gzip sniff of the tile handler: more than two bytes, starting
      with the gzip magic number 1f 8b. */
  predicate IsGzip(data: seq<byte>)
  {
    |data| > 2 && data[0] == 0x1f && data[1] == 0x8b
  }

  /** Headers set on every served tile. */
  function TileHeaders(data: seq<byte>): (h: map<string, string>)
    ensures "Access-Control-Allow-Origin" in h && h["Access-Control-Allow-Origin"] == "*"
    ensures "Content-Type" in h && h["Content-Type"] == "application/x-protobuf"
    ensures "Content-Encoding" in h <==> IsGzip(data)
    ensures "Content-Encoding" in h ==> h["Content-Encoding"] == "gzip"
    ensures |h| == if IsGzip(data) then 3 else 2
  {
    var base := map["Access-Control-Allow-Origin" := "*", "Content-Type" := "application/x-protobuf"];
    if IsGzip(data) then base["Content-Encoding" := "gzip"] else base
  }

  /** The sniff on concrete blobs: a gzip stream gets the header, a PNG does
      not, and neither does the bare two-byte magic number. */
  lemma GzipSniffExamples()
    ensures "Content-Encoding" in TileHeaders([0x1f, 0x8b, 0x08])
    ensures "Content-Encoding" !in TileHeaders([0x89, 0x50, 0x4e, 0x47])
    ensures "Content-Encoding" !in TileHeaders([0x1f, 0x8b])
  {
  }
}

=== FILE: wrappers.dfy ===
/** An optional value, used throughout the model. */
module Wrappers {

  /** A value that may be absent: Go's `(v, ok)` and `(v, err)` pairs when
      only the presence of the error matters. */
  datatype Option<+T> = None | Some(value: T)
}
